=== FILE: README.md ===
# SVG shapes and the readSVG element builder, in Dafny

This project models the core of a small SVG-to-PNG converter. There are three parts.

- **The SVGElement hierarchy** (`SVGElements.hpp`, `SVGElements.cpp`):
  - the classes Ellipse, Circle, polyline, line, polygon, rect and Group;
  - their constructors and `getType` tags;
  - their `draw` output, as a trace of calls on the PNG sink;
  - Group's forwarding of `translate`/`rotate`/`scale` to its children.
- **The attribute readers of `readSVG`** (`readSVG.cpp`):
  - the `transform` and `transform_origin` parsers, built on `std::string::find`, `substr` and `std::stoi`, with `size_t` wrap-around;
  - the index scanner that reads a top-level `polygon`'s points;
  - the `istringstream >> x >> comma >> y` loop that reads a `polyline`'s points.
- **The per-element build and the document loop of `readSVG`**:
  - dispatch on the tag;
  - default transform parameters;
  - the fixed rotate → translate → scale application with one shared origin;
  - appending each built element to the output vector, in document order, until the first exception.

Modules, by file:

| module | file | contents |
|---|---|---|
| `Wrappers`, `Faults` | wrappers.dfy | `Option`, `Result`; the exceptions the code can throw |
| `Geometry` | geometry.dfy | `Point`, `Color`, and `Motion`: one transform call (rotation, translation or scaling) |
| `CppString` | cpp_string.dfy | `size_t` (`NPOS`, wrapping `Inc`/`Sub`), `find`, `substr`, the `stoi` / `>> int` lexeme, decimal rendering of an `int` |
| `Shapes` | svg_elements.dfy | the classes as one `Shape` datatype, `Draw`, `Apply`/`FanOut` |
| `TransformAttr` | transform_attr.dfy | `transform` and `transform_origin` |
| `PointLists` | point_lists.dfy | the polygon scanner, the stream reader, and the rendering `Join` that both should invert |
| `Reader` | read_svg.dfy | the element record, `BuildElement`, the document fold `ReadChildren`, and the method `ReadSVG` |

Modelling choices:

- **Transforms are logged.** The Point transform formulas are not part of this model. Each leaf keeps the list of transform calls it has received, and every draw command carries its leaf's list. This is enough to state the order of the calls, which pivot each one uses, and which leaves a Group call reaches.
- **Element records are abstract.** An element is its tag, its text attributes, and its integer attributes already read. `IntAttribute` gives 0 for a missing integer attribute, as tinyxml2 does.
- **Colours are resolved by a parameter.** `parse_color` becomes the parameter `resolve: string -> Option<Color>`. When it gives `None`, the build fails with `UnresolvedColor`.
- **Exceptions become results.**
  - `Attribute(key)` on an absent key returns a null pointer, and building a `std::string` from it is undefined behaviour. libstdc++ throws `std::logic_error` there, and the model follows it as the fault `NullAttribute(key)`.
  - `std::stoi` throws `invalid_argument` (`NoConversion`) or `out_of_range` (`NumberOutOfRange`).
  - `readSVG` fills its caller's vector as it goes. So a fault leaves the elements appended before it in place. `Outcome` records both the elements and the fault.

## Model

| member | source | states |
|---|---|---|
| Shapes.KindsDistinct | SVGElements.hpp:49-155 | every shape reports one of the seven tags "Ellipse", "Circle", "polyline", "line", "polygon", "rect", "Group", and two shapes share a tag exactly when they are instances of the same class |
| Shapes.MakeEllipse | SVGElements.cpp:12-21 | the Ellipse constructor stores fill, center and radius unchanged; draw issues exactly one ellipse call with that center, radius and fill |
| Shapes.MakeCircle | SVGElements.cpp:28-34 | a Circle stores the same three fields through Ellipse's constructor and draws one ellipse call with them |
| Shapes.CircleIsEllipse | SVGElements.hpp:57-72 | a Circle adds no geometry: its fields and its draw output equal those of the Ellipse with the same arguments, while its tag differs |
| Shapes.Segments | SVGElements.cpp:49-53 | the open chain through N ≥ 1 points has N−1 segments, the i-th joining point i to point i+1 |
| Shapes.DrawPolyline | SVGElements.cpp:49-53 | polyline::draw's loop issues exactly the N−1 line calls between consecutive points, in order |
| Shapes.PolylineSegmentCount | SVGElements.cpp:45-53 | a constructed polyline with N ≥ 1 points draws N−1 line calls with its fill, the i-th from points[i] to points[i+1] |
| Shapes.MakePolyline | SVGElements.cpp:45-47 | polyline stores fill and points unchanged, and it can be drawn exactly when it has at least one point |
| Shapes.MakeLine | SVGElements.cpp:60-67 | line stores the inherited point list [start, end] and the two endpoints, and draws one line call from start to end |
| Shapes.LineIsTwoPointPolyline | SVGElements.hpp:89-101 | a line is a polyline of exactly two points, and its draw output is the chain through those two points |
| Shapes.MakePolygon | SVGElements.cpp:74-79 | polygon stores its vertex list unchanged and draws one polygon call carrying that list in order |
| Shapes.Corners | SVGElements.cpp:86-91 | a rect has exactly four vertices, the first being the upper-left corner, each offset from it by 0 or the width in x and by 0 or the height in y |
| Shapes.MakeRect | SVGElements.cpp:83-94 | rect stores its fill and exactly the four corners, and its draw is a single polygon call over those corners in that order |
| Shapes.RectIsPolygon | SVGElements.hpp:119-140 | a rect draws exactly as the polygon over its own vertex list |
| Shapes.RectSpansBox | SVGElements.cpp:83-91 | for a non-negative size, the vertices stay within the box from the corner to corner + (width, height), reach its far edges, and go round it edge by edge, with no off-by-one adjustment |
| Shapes.MakeGroup | SVGElements.cpp:96-99 | a Group holds its children in the given order and its id, and can be drawn exactly when every child can |
| Shapes.DrawAllAppend | SVGElements.cpp:101-105 | drawing a child sequence split in two is drawing the first part, then the second |
| Shapes.GroupPaintOrder | SVGElements.cpp:101-105 | adding a child at the end of a Group adds that child's draw output after everything the Group drew before |
| Shapes.DrawGroup | SVGElements.cpp:101-105 | Group::draw's loop over its children produces the Group's draw output |
| Shapes.DrawIsLeafOrder | SVGElements.cpp:101-105 | a shape's draw output is the draw output of its leaves, in depth-first order, at any nesting depth |
| Shapes.DrawAllIsLeafOrder | SVGElements.cpp:101-105 | the same for a sequence of children |
| Shapes.Apply | SVGElements.cpp:107-122 | a transform call keeps the class; a leaf keeps its geometry and logs the call last; a Group keeps its id and number of children |
| Shapes.FanOut | SVGElements.cpp:107-122 | Group's forwarding sends the same call to every child in sequence order |
| Shapes.ApplyReachesEveryLeaf | SVGElements.cpp:107-122 | a transform call on any tree reaches exactly its leaves, in order, each receiving the same call |
| Shapes.FanOutReachesEveryLeaf | SVGElements.cpp:107-122 | the same for a sequence of children |
| Shapes.DrawAfterApply | SVGElements.cpp:101-122 | drawing after a transform call gives the same draw calls, in the same order, each carrying that call last |
| Shapes.DrawAllAfterFanOut | SVGElements.cpp:101-122 | the same for Group's children |
| Shapes.ApplyKeepsFrame | SVGElements.cpp:107-122 | a transform call changes nothing but the logs: classes, child lists, ids and constructed geometry are unchanged |
| CppString.Find | readSVG.cpp:53 | std::string::find gives npos or an index at or after the start position holding the character |
| CppString.FindSpec | readSVG.cpp:176-187 | find gives npos exactly when the character does not occur from the start position on, and otherwise its first occurrence |
| CppString.SubstrPiece | readSVG.cpp:53-75 | substr throws out_of_range when the position is past the end; otherwise the piece lies at the position between the text before it and the rest, and is `count` characters long unless the text ends first |
| CppString.ScanInt | readSVG.cpp:145 | the integer lexeme yields an int in range and a strictly shorter rest, or fails with no digits or out of range |
| CppString.StoI | readSVG.cpp:57 | std::stoi yields an int in the 32-bit range, or throws invalid_argument or out_of_range |
| CppString.ScanShow | readSVG.cpp:145 | reading back a rendered int followed by a non-digit gives that int and exactly the rest |
| CppString.StoIShow | readSVG.cpp:57 | std::stoi of a rendered int followed by a non-digit gives that int |
| CppString.StoIPrefix | readSVG.cpp:178-189 | std::stoi of a text that starts with a rendered int, with no digit after it, gives that int whatever follows |
| CppString.ScanIntSkipsSpace | readSVG.cpp:145 | leading white space does not change what the integer lexeme reads |
| CppString.SkipSpaceSpec | readSVG.cpp:145 | skipping white space drops exactly the leading white-space characters |
| CppString.DigitRunSpec | readSVG.cpp:57 | the digit run is the longest prefix made of digits |
| CppString.DecimalValue | readSVG.cpp:57 | the decimal rendering of a natural number is a non-empty digit string whose value is that number |
| TransformAttr.Head | readSVG.cpp:53 | the transform kind is the prefix before the first '(', or the whole text when there is none |
| TransformAttr.Argument | readSVG.cpp:55-57 | the argument of rotate and scale is an int in range, or stoi's exception |
| TransformAttr.ParsePair | readSVG.cpp:60-64 | both coordinates of a pair are ints in range, or the read throws stoi's exception |
| TransformAttr.ParseTransform | readSVG.cpp:48-70 | an unrecognised kind leaves every parameter at its default with no error; a recognised kind changes only its own parameter; only a recognised kind can throw |
| TransformAttr.RotateOf | readSVG.cpp:54-57 | a `rotate` kind sets only the angle, to the argument |
| TransformAttr.ScaleOf | readSVG.cpp:66-68 | a `scale` kind sets only the factor, to the argument |
| TransformAttr.TranslateOf | readSVG.cpp:59-64 | a `translate` kind sets only the direction, to the pair |
| TransformAttr.RotateRoundTrip | readSVG.cpp:54-57 | `rotate(N)` followed by any non-digit text reads back as angle N with translate (0,0) and scale 1 |
| TransformAttr.ScaleRoundTrip | readSVG.cpp:66-68 | `scale(N)` followed by any non-digit text reads back as factor N with the other defaults |
| TransformAttr.ScaleTruncates | readSVG.cpp:66-68 | `scale(2.5)` yields factor 2, because stoi stops at the '.' |
| TransformAttr.TranslateRoundTrip | readSVG.cpp:59-64 | `translate(X Y)` followed by any non-digit text reads back as direction (X, Y) with the other defaults |
| TransformAttr.TranslateNeedsSpace | readSVG.cpp:59-64 | a `translate` without a space throws |
| TransformAttr.OriginRoundTrip | readSVG.cpp:71-78 | a transform_origin `"X Y"` reads back as (X, Y) |
| TransformAttr.OriginParenthesised | readSVG.cpp:74-78 | a transform_origin `"(X Y)"` also reads back as (X, Y): the leading '(' is optional because npos + 1 wraps to 0 |
| TransformAttr.OriginWithoutSpace | readSVG.cpp:74-77 | a transform_origin with a single number X reads as (X, X), because both reads start at index 0 |
| PointLists.Stop | readSVG.cpp:185-188 | a round of the polygon scanner always moves forward and never past the end of the text |
| PointLists.ScanPolygonFrom | readSVG.cpp:173-194 | the scanner loop yields at most one point per remaining character, every one in int range, or stoi's exception |
| PointLists.ScanRound | readSVG.cpp:176-193 | one round yields at least one point, or stoi's exception |
| PointLists.ScanPolygon | readSVG.cpp:169-194 | a polygon's point list, from position 0 |
| PointLists.ScanReads | readSVG.cpp:173-194 | when rounds from one position read a list of points and stop at a second position, the scanner yields that list followed by whatever it reads from the second position |
| PointLists.JoinReads | readSVG.cpp:176-193 | on a rendered list `x1,y1 … xn,yn` followed by text that is empty or starts with a space, the rounds from 0 read exactly those points and stop where that text begins |
| PointLists.TailReads | readSVG.cpp:176-193 | the same for the rounds that start at a space |
| PointLists.PolygonRoundTrip | readSVG.cpp:169-194 | the scanner reads back exactly the points of any rendered list `x1,y1 x2,y2 … xn,yn`, in order |
| PointLists.PolygonTrailingSpaceThrows | readSVG.cpp:176-189 | any rendered list, the empty one included, followed by a space throws invalid_argument, because the last x is read from a text with no digit |
| PointLists.LastSpaceThrows | readSVG.cpp:176-189 | a round that starts at a final space throws invalid_argument |
| PointLists.PolygonLoneNumber | readSVG.cpp:176-192 | a lone number X, with no comma, reads as the single point (X, X), because both reads start at index 0 |
| PointLists.Separator | readSVG.cpp:145 | `>> comma` consumes at least one character when it succeeds |
| PointLists.ReadPair | readSVG.cpp:145 | one round of `iss >> x >> comma >> y` reads two ints in range and consumes input |
| PointLists.StreamPoints | readSVG.cpp:145-151 | the loop reads at most one point per character, every one in int range |
| PointLists.StreamTail | readSVG.cpp:145-151 | the loop reads each ` x,y` of a rendered tail in order and then carries on with the text after it |
| PointLists.StreamRoundTrip | readSVG.cpp:145-151 | the stream loop reads back exactly the points of any rendered list, in order |
| PointLists.StreamIgnoresTrailingSpace | readSVG.cpp:145-151 | a trailing space changes nothing for the stream loop |
| PointLists.PolylineRoundTrip | readSVG.cpp:141-151 | a polyline's points are (0,0), (10,10), then exactly the rendered points |
| PointLists.ReadersAgree | readSVG.cpp:141-194 | on a rendered list without a trailing space, the polygon scanner and the stream loop read the same points |
| PointLists.ReadersDisagreeOnTrailingSpace | readSVG.cpp:141-194 | with a trailing space after any rendered list, the empty one included, the polygon scanner throws while the stream loop reads the points |
| Reader.ColorOf | readSVG.cpp:88-89 | a colour attribute succeeds exactly when the attribute is present and resolves; a missing attribute throws first |
| Reader.ReadPlacement | readSVG.cpp:34-79 | the per-element parameters succeed exactly when each attribute present parses; a bad transform is reported before transform_origin is read |
| Reader.PlacementDefaults | readSVG.cpp:34-37 | with neither attribute, the parameters are rotate 0, translate (0,0), scale 1 and origin (0,0) |
| Reader.PlacementRotate | readSVG.cpp:48-79 | `rotate(N)` with origin `"X Y"` gives angle N about (X, Y) and the other defaults |
| Reader.PlacementTranslate | readSVG.cpp:48-79 | `translate(X Y)` without an origin gives direction (X, Y) and origin (0,0) |
| Reader.PlacementOtherKind | readSVG.cpp:53-69 | an unrecognised transform kind leaves every default in place |
| Reader.Place | readSVG.cpp:91-93 | a placed leaf keeps its class and geometry and receives rotate(origin, r), translate(t), scale(origin, s) after its earlier calls, in that order |
| Reader.Construct | readSVG.cpp:81-202 | an unknown tag builds nothing; a known tag builds a shape of the class its tag names, which has received no transform call yet |
| Reader.BuildElement | readSVG.cpp:34-202 | a bad transform or origin fails the element with that fault; when the element builds, it yields a shape exactly for the six leaf tags, of the class its tag names, carrying exactly the rotate, translate and scale calls of the element's own parameters |
| Reader.BadTransformEndsChild | readSVG.cpp:48-70 | a transform that throws fails the element with that exception whatever its tag |
| Reader.RectBuilds | readSVG.cpp:81-93 | a rect is the polygon over (x,y), (x+w,y), (x+w,y+h), (x,y+h) in its fill colour, placed by the element's parameters |
| Reader.CircleBuilds | readSVG.cpp:95-106 | a circle draws one ellipse at (cx,cy) with radius (r,r) in its fill colour |
| Reader.EllipseBuilds | readSVG.cpp:122-134 | an ellipse draws one ellipse at (cx,cy) with radius (rx,ry) in its fill colour |
| Reader.LineBuilds | readSVG.cpp:108-120 | a line joins (x1,y1) to (x2,y2), its point list takes the stroke colour, and its draw call has no colour set |
| Reader.LineIgnoresFill | readSVG.cpp:108-120 | a line's result does not depend on its fill attribute |
| Reader.PolylineBuilds | readSVG.cpp:137-157 | a polyline over a rendered list is (0,0), (10,10), then those points, in its fill colour; it draws one more segment than the list has points, starting with (0,0)–(10,10) |
| Reader.PolygonBuilds | readSVG.cpp:160-201 | a polygon over a rendered list draws one polygon call with exactly those points, in its fill colour |
| Reader.PolygonTrailingSpace | readSVG.cpp:164-194 | a polygon whose points, possibly none, end in a space fails with invalid_argument |
| Reader.MissingPoints | readSVG.cpp:137-164 | a polyline or polygon without `points` fails on that attribute |
| Reader.MissingFill | readSVG.cpp:81-129 | a rect, circle or ellipse without `fill` fails on that attribute |
| Reader.UnknownTagBuildsNothing | readSVG.cpp:81-204 | an element with any other tag appends nothing and raises nothing once its transform and transform_origin both parse (a bad transform_origin still throws, whatever the tag) |
| Reader.CollectAppend | readSVG.cpp:29-324 | reading children split in two is reading the first part, then, only when it raised nothing, the second |
| Reader.CollectSucceeds | readSVG.cpp:29-324 | the loop raises nothing exactly when every child builds, and then it appends one element per built shape |
| Reader.CollectKeeps | readSVG.cpp:29-324 | the loop appends only shapes some child built, at most one per child |
| Reader.CollectStepOk | readSVG.cpp:29-324 | a child that builds extends the output by its shape, if any |
| Reader.CollectStepErr | readSVG.cpp:29-324 | a child that fails ends the loop with the elements appended so far and its exception |
| Reader.ReadChildrenAppend | readSVG.cpp:29-324 | elements of a longer document follow those of its first part, in document order, and nothing after a fault is read |
| Reader.ReadChildrenPlaced | readSVG.cpp:29-324 | every appended element is a leaf that received one rotate, then one translate, then one scale, with rotate and scale about the same origin |
| Reader.ReadChildrenSucceeds | readSVG.cpp:29-324 | the document raises nothing exactly when every child builds, and then one element is appended per child with a leaf tag |
| Reader.CountLeaves | readSVG.cpp:81-202 | when every child builds, the shapes built are exactly the children with a leaf tag |
| Reader.FirstFault | readSVG.cpp:29-324 | the first child that fails ends the read with its exception and the elements of the children before it |
| Reader.ReadSVG | readSVG.cpp:14-326 | dimensions are the root's width and height; the elements and fault are those of the document fold; every element is placed |

## Left out

- PointLists.Separator: attribute text is modelled as a sequence of characters, while `>> comma` reads one byte of the UTF-8 text. A separator that is not ASCII is one `>> comma` here but several bytes in the program, so on `1é2` the program reads no pair where this model reads (1, 2). The polygon scanner and the transform readers only search for ASCII characters and digits, so they are not affected.
- Loading the file with tinyxml2, and the runtime error for an unreadable file (readSVG.cpp:16-21): external I/O. The input is an abstract document record.
- Reading integer attributes (`IntAttribute`): the record carries the integers already read, and a missing one is 0.
- `parse_color` and `Color`: defined outside the modelled files. They appear as the parameter `resolve`.
- The Point translate/rotate/scale formulas and each class's own transform bodies: declared but not defined or shown in the modelled files. Transform calls are logged as `Motion` values instead.
- The `g` branch (readSVG.cpp:204-322): `Reader.BuildElement`, `Reader.Builds` and `Reader.ReadSVG` require that no child is named "g". The branch reads its children's attributes from the `g` element itself. It transforms `svg_elements.back()` instead of the new child. It keeps a reference to a local vector. It does not recurse into nested groups.
- Group's constructor call of a base constructor that does not exist (SVGElements.cpp:97), and its three forwarding loops (SVGElements.cpp:107-122): they do not compile, because each calls a non-const member through a `const SVGElement *`, and the translate and rotate calls also pass arguments of the wrong signature. Only the evident fan-out is modelled.
- The dangling references that Group keeps to its element vector and id (SVGElements.hpp:157-158): memory lifetime is not modelled.
- The colour of `line::draw`: it reads line's own `fill` member, which no constructor sets. That ink is `Unset`.
- rect's own `upper_left_corner`, `width` and `height` members: never initialised and never read.
- Shapes.MakeRect: corner sums are unbounded integers, so a 32-bit `int` overflow in `upper_left_corner.x + width` is not modelled.
- Shapes.Segments: a polyline with no points is excluded by `Drawable`. There `points.size() - 1` wraps and the loop reads past the vector.
- The attribute map's first-wins `insert` for a repeated attribute name: the record maps each name to one value.
- PNG rasterisation, `new` and ownership of the element vector, and `convert`: external or memory management.

=== FILE: cpp_string.dfy ===
/**
  The parts of std::string, size_t and std::stoi that readSVG relies on, with
  the unsigned wrap-around of size_t written out.
 */
module CppString {
  import opened Wrappers
  import opened Faults

  /** size_t on a 64-bit target. */
  const SIZE_MODULUS: int := 0x1_0000_0000_0000_0000

  type Size = n: int | 0 <= n < SIZE_MODULUS

  /** std::string::npos, the largest size_t. */
  const NPOS: Size := SIZE_MODULUS - 1

  /** A std::string: its length is a size_t that never reaches npos. */
  type Str = s: string | |s| < NPOS

  /** `n + 1` in size_t, so npos + 1 wraps to 0. */
  function Inc(n: Size): Size {
    if n == NPOS then 0 else n + 1
  }

  /** `a - b` in size_t, wrapping below zero. */
  function Sub(a: Size, b: Size): Size {
    if a >= b then a - b else a - b + SIZE_MODULUS
  }

  function Min(a: int, b: int): int {
    if a <= b then a else b
  }

  /** std::string::find(c, from): the first index at or after `from` holding `c`, or npos. */
  function Find(s: Str, c: char, from: Size): (r: Size)
    ensures r == NPOS || (from <= r < |s| && s[r] == c)
    decreases |s| - from
  {
    if from >= |s| then NPOS
    else if s[from] == c then from
    else Find(s, c, from + 1)
  }

  /** find answers npos exactly when `c` does not occur from `from` on, and otherwise the first occurrence. */
  lemma {:induction false} FindSpec(s: Str, c: char, from: Size)
    ensures Find(s, c, from) == NPOS <==> forall i :: from <= i < |s| ==> s[i] != c
    ensures Find(s, c, from) != NPOS ==> forall i :: from <= i < Find(s, c, from) ==> s[i] != c
    decreases |s| - from
  {
    if from < |s| && s[from] != c {
      FindSpec(s, c, from + 1);
    }
  }

  /** find stops at the first occurrence. */
  lemma FindAt(s: Str, c: char, from: Size, at: nat)
    requires from <= at < |s| && s[at] == c
    requires forall i :: from <= i < at ==> s[i] != c
    ensures Find(s, c, from) == at
  {
    FindSpec(s, c, from);
  }

  /** find reports nothing before the first occurrence. */
  lemma FindNotBefore(s: Str, c: char, bound: nat)
    requires bound <= |s|
    requires forall i :: 0 <= i < bound ==> s[i] != c
    ensures Find(s, c, 0) == NPOS || Find(s, c, 0) >= bound
  {
    FindSpec(s, c, 0);
  }

  /** find cannot stop inside a stretch of `s` spelled by a string that lacks `c`. */
  lemma FindPastSlice(s: Str, c: char, lo: nat, w: string)
    requires lo + |w| <= |s| && s[lo .. lo + |w|] == w
    requires forall i :: 0 <= i < lo ==> s[i] != c
    requires forall j :: 0 <= j < |w| ==> w[j] != c
    ensures Find(s, c, 0) == NPOS || Find(s, c, 0) >= lo + |w|
  {
    forall i | lo <= i < lo + |w|
      ensures s[i] != c
    {
      assert s[i] == w[i - lo];
    }
    FindNotBefore(s, c, lo + |w|);
  }

  /** std::string::substr(pos, count): throws when pos is past the end, else at most count characters. */
  function Substr(s: Str, pos: Size, count: Size): (r: Result<Str, Fault>)
    ensures r.Ok? <==> pos <= |s|
    ensures r.Ok? ==> r.value == s[pos .. pos + Min(count, |s| - pos)]
  {
    if pos > |s| then Err(PositionOutOfRange) else Ok(s[pos .. pos + Min(count, |s| - pos)])
  }

  /**
    substr throws out_of_range past the end; otherwise the piece sits at `pos`
    between what comes before and the rest, and it is `count` characters long
    unless the text ends first.
   */
  lemma SubstrPiece(s: Str, pos: Size, count: Size)
    ensures pos > |s| ==> Substr(s, pos, count) == Err(PositionOutOfRange)
    ensures Substr(s, pos, count).Ok? ==>
      var piece := Substr(s, pos, count).value;
      && s == s[..pos] + piece + s[pos + |piece|..]
      && |piece| <= count
      && (|piece| == count || pos + |piece| == |s|)
  {
  }

  /** std::isspace in the "C" locale: space, \t, \n, \v, \f, \r. */
  predicate IsSpace(c: char) {
    c == ' ' || '\t' <= c <= '\r'
  }

  predicate IsDigit(c: char) {
    '0' <= c <= '9'
  }

  predicate AllDigits(s: string) {
    forall i :: 0 <= i < |s| ==> IsDigit(s[i])
  }

  predicate AllSpaces(s: string) {
    forall i :: 0 <= i < |s| ==> IsSpace(s[i])
  }

  /** Drops leading white space. */
  function SkipSpace(s: string): (r: string)
    ensures |r| <= |s|
  {
    if |s| > 0 && IsSpace(s[0]) then SkipSpace(s[1..]) else s
  }

  /** What SkipSpace drops is white space, and what it keeps does not start with white space. */
  lemma {:induction false} SkipSpaceSpec(s: string)
    ensures SkipSpace(s) == s[|s| - |SkipSpace(s)|..]
    ensures AllSpaces(s[..|s| - |SkipSpace(s)|])
    ensures |SkipSpace(s)| == 0 || !IsSpace(SkipSpace(s)[0])
  {
    if |s| > 0 && IsSpace(s[0]) {
      SkipSpaceSpec(s[1..]);
      var r := SkipSpace(s);
      assert s[1..][..|s| - 1 - |r|] == s[1..|s| - |r|];
    }
  }

  /** The length of the leading run of decimal digits. */
  function DigitRun(s: string): (n: nat)
    ensures n <= |s|
  {
    if |s| > 0 && IsDigit(s[0]) then 1 + DigitRun(s[1..]) else 0
  }

  /** The run DigitRun measures is all digits and cannot be extended. */
  lemma {:induction false} DigitRunSpec(s: string)
    ensures AllDigits(s[..DigitRun(s)])
    ensures DigitRun(s) == |s| || !IsDigit(s[DigitRun(s)])
  {
    if |s| > 0 && IsDigit(s[0]) {
      DigitRunSpec(s[1..]);
      var n := DigitRun(s);
      assert s[..n] == [s[0]] + s[1..][..n - 1];
    }
  }

  /** The value of a decimal numeral, most significant digit first. */
  function DigitsValue(ds: string): int {
    if |ds| == 0 then 0
    else 10 * DigitsValue(ds[..|ds| - 1]) + (ds[|ds| - 1] as int - '0' as int)
  }

  const INT_MIN: int := -0x8000_0000
  const INT_MAX: int := 0x7FFF_FFFF

  /** The range of a 32-bit int. */
  predicate IsInt(v: int) {
    INT_MIN <= v <= INT_MAX
  }

  predicate Negative(t: string) {
    |t| > 0 && t[0] == '-'
  }

  /** Drops one leading sign character. */
  function Unsigned(t: string): string {
    if |t| > 0 && (t[0] == '-' || t[0] == '+') then t[1..] else t
  }

  /**
    The integer lexeme that both std::stoi and `istream >> int` read: leading
    white space, an optional sign, then the longest run of digits. Yields the
    value and the unread rest; fails when there is no digit or the value does
    not fit an int.
   */
  function ScanInt(s: string): (r: Result<(int, string), Fault>)
    ensures r.Ok? ==> IsInt(r.value.0) && |r.value.1| < |s|
    ensures r.Err? ==> r.error == NoConversion || r.error == NumberOutOfRange
  {
    var t := SkipSpace(s);
    var u := Unsigned(t);
    var n := DigitRun(u);
    if n == 0 then Err(NoConversion)
    else
      var magnitude: int := DigitsValue(u[..n]);
      var v: int := if Negative(t) then -magnitude else magnitude;
      if IsInt(v) then Ok((v, u[n..]))
      else Err(NumberOutOfRange)
  }

  /** std::stoi: the integer at the start of `s`, ignoring whatever follows it. */
  function StoI(s: string): (r: Result<int, Fault>)
    ensures r.Ok? ==> IsInt(r.value)
    ensures r.Err? ==> r.error == NoConversion || r.error == NumberOutOfRange
  {
    match ScanInt(s)
    case Ok((v, _)) => Ok(v)
    case Err(e) => Err(e)
  }

  function DigitChar(d: int): char
    requires 0 <= d < 10
  {
    ('0' as int + d) as char
  }

  /** The shortest decimal numeral of `n`. */
  function Decimal(n: nat): string
    decreases n
  {
    if n < 10 then [DigitChar(n)] else Decimal(n / 10) + [DigitChar(n % 10)]
  }

  /** How an int is written in an attribute: an optional minus sign, then its numeral. */
  function Show(v: int): string {
    if v < 0 then "-" + Decimal(-v) else Decimal(v)
  }

  /** Decimal is the inverse of DigitsValue. */
  lemma {:induction false} DecimalValue(n: nat)
    ensures |Decimal(n)| > 0 && AllDigits(Decimal(n))
    ensures DigitsValue(Decimal(n)) == n
    decreases n
  {
    var d := Decimal(n);
    if n < 10 {
      assert d[..0] == [];
    } else {
      DecimalValue(n / 10);
      assert d[..|d| - 1] == Decimal(n / 10);
    }
  }

  /** Every character of a rendered int is a digit or the leading minus sign. */
  lemma ShowChars(v: int)
    ensures |Show(v)| > 0
    ensures forall i :: 0 <= i < |Show(v)| ==> IsDigit(Show(v)[i]) || (i == 0 && Show(v)[i] == '-')
  {
    if v < 0 {
      DecimalValue(-v);
    } else {
      DecimalValue(v);
    }
  }

  lemma {:induction false} DigitRunOf(ds: string, rest: string)
    requires AllDigits(ds)
    requires |rest| == 0 || !IsDigit(rest[0])
    ensures DigitRun(ds + rest) == |ds|
    decreases |ds|
  {
    if |ds| > 0 {
      assert (ds + rest)[1..] == ds[1..] + rest;
      DigitRunOf(ds[1..], rest);
    } else {
      assert ds + rest == rest;
    }
  }

  /** The unsigned part of a rendered int: its numeral followed by the rest. */
  lemma UnsignedOfShow(v: int, rest: string)
    ensures SkipSpace(Show(v) + rest) == Show(v) + rest
    ensures Negative(Show(v) + rest) <==> v < 0
    ensures Unsigned(Show(v) + rest) == Decimal(if v < 0 then -v else v) + rest
  {
    var m := if v < 0 then -v else v;
    DecimalValue(m);
    var s := Show(v) + rest;
    if v < 0 {
      assert s == "-" + (Decimal(m) + rest);
    } else {
      assert s == Decimal(m) + rest;
      assert IsDigit(s[0]);
    }
  }

  /** Reading an int back from its rendering gives the int and leaves the rest untouched. */
  lemma ScanShow(v: int, rest: string)
    requires IsInt(v)
    requires |rest| == 0 || !IsDigit(rest[0])
    ensures ScanInt(Show(v) + rest) == Ok((v, rest))
  {
    var s := Show(v) + rest;
    var m := if v < 0 then -v else v;
    DecimalValue(m);
    var ds := Decimal(m);
    UnsignedOfShow(v, rest);
    var u := Unsigned(SkipSpace(s));
    assert u == ds + rest;
    DigitRunOf(ds, rest);
    assert u[..|ds|] == ds;
    assert u[|ds|..] == rest;
  }

  lemma StoIShow(v: int, rest: string)
    requires IsInt(v)
    requires |rest| == 0 || !IsDigit(rest[0])
    ensures StoI(Show(v) + rest) == Ok(v)
  {
    ScanShow(v, rest);
  }

  /** `u` starts with the word `w`, and no digit follows it there. */
  predicate Begins(u: string, w: string) {
    |w| <= |u| && u[..|w|] == w && (|w| == |u| || !IsDigit(u[|w|]))
  }

  /** The characters readSVG searches for when it splits an attribute. */
  predicate IsMark(c: char) {
    c == '(' || c == ')' || c == ' ' || c == ','
  }

  /** A word none of whose characters is a mark. */
  predicate Plain(w: string) {
    forall i :: 0 <= i < |w| ==> !IsMark(w[i])
  }

  /** A rendered int is a non-empty plain word. */
  lemma ShowPlain(v: int)
    ensures |Show(v)| > 0 && Plain(Show(v))
  {
    ShowChars(v);
  }

  /** std::stoi of a text that starts with a rendered int yields that int. */
  lemma StoIPrefix(u: string, v: int)
    requires IsInt(v)
    requires Begins(u, Show(v))
    ensures StoI(u) == Ok(v)
  {
    var rest := u[|Show(v)|..];
    assert u == Show(v) + rest;
    StoIShow(v, rest);
  }

  /** A slice that starts at the word `w` and covers all of it begins with `w`. */
  lemma SliceBegins(s: string, start: nat, len: nat, w: string)
    requires start + |w| <= start + len <= |s|
    requires s[start .. start + |w|] == w
    requires start + |w| == |s| || !IsDigit(s[start + |w|])
    ensures Begins(s[start .. start + len], w)
  {
    var u := s[start .. start + len];
    assert u[..|w|] == s[start .. start + |w|];
    if |w| < |u| {
      assert u[|w|] == s[start + |w|];
    }
  }

  lemma {:induction false} SkipSpacePrefix(w: string, s: string)
    requires AllSpaces(w)
    ensures SkipSpace(w + s) == SkipSpace(s)
    decreases |w|
  {
    if |w| > 0 {
      assert (w + s)[1..] == w[1..] + s;
      SkipSpacePrefix(w[1..], s);
    } else {
      assert w + s == s;
    }
  }

  /** Leading white space never changes what is read. */
  lemma ScanIntSkipsSpace(w: string, s: string)
    requires AllSpaces(w)
    ensures ScanInt(w + s) == ScanInt(s)
  {
    SkipSpacePrefix(w, s);
  }
}

=== FILE: geometry.dfy ===
/**
  Value types the shapes are built from. Point.hpp and Color.hpp are not part
  of this model; only what SVGElements.hpp uses of them is stated here.
 */
module Geometry {

  /** An integer pixel coordinate pair. */
  datatype Point = Point(x: int, y: int)

  const ORIGIN: Point := Point(0, 0)

  /** One colour channel. */
  type Channel = n: int | 0 <= n < 256

  datatype Color = Color(red: Channel, green: Channel, blue: Channel)

  /**
    One call of the transform interface of SVGElement: every argument is
    integral (SVGElements.hpp declares the direction and origin as Points and
    the angle and factor as int).
   */
  datatype Motion =
    | Rotation(pivot: Point, degrees: int)
    | Translation(dir: Point)
    | Scaling(pivot: Point, factor: int)
}

=== FILE: point_lists.dfy ===
/**
  The two point-list readers of readSVG: the index scanner over find/substr
  used for a top-level polygon (readSVG.cpp, lines 169-194) and the
  `istringstream >> x >> comma >> y` loop used for a polyline (lines 141-151).
 */
module PointLists {
  import opened Wrappers
  import opened Faults
  import opened Geometry
  import opened CppString

  predicate AllInt(pts: seq<Point>) {
    forall i :: 0 <= i < |pts| ==> IsInt(pts[i].x) && IsInt(pts[i].y)
  }

  /** A thrown fault stays thrown; points read so far are put in front of a later success. */
  function Prepend(pts: seq<Point>, r: Result<seq<Point>, Fault>): Result<seq<Point>, Fault> {
    match r
    case Ok(more) => Ok(pts + more)
    case Err(e) => Err(e)
  }

  // ---------------------------------------------------------------------------
  // The polygon scanner

  /** Where the comma of the pair read from `pos` is, or npos. */
  function Comma(s: Str, pos: Size): Size {
    Find(s, ',', pos)
  }

  /**
    The text x is read from: just after `pos` (a space), or from 0 on the
    first pair, with `end - pos` characters, which wraps to "the rest" when
    there is no comma.
   */
  function XText(s: Str, pos: Size): string
    requires pos < |s|
  {
    // pos < |s|, so neither substr can throw
    if pos != 0 then Substr(s, Inc(pos), Sub(Comma(s, pos), pos)).value
    else Substr(s, pos, Sub(Comma(s, pos), pos)).value
  }

  /** Where the pair read from `pos` ends: the first space after its comma, or the end of the text. */
  function Stop(s: Str, pos: Size): (r: Size)
    requires pos < |s|
    ensures pos < r <= |s|
  {
    var found := Find(s, ' ', Comma(s, pos));
    if found == NPOS then |s| else found
  }

  /** The text y is read from: just after the comma (from 0 when there is none), up to the stop. */
  function YText(s: Str, pos: Size): string
    requires pos < |s|
  {
    var comma := Comma(s, pos);
    // the position is at most |s|, so this substr cannot throw
    Substr(s, Inc(comma), Sub(Stop(s, pos), comma)).value
  }

  /**
    The scanner loop from `pos` on: it ends when the position reaches the
    end of the text, and otherwise reads one round.
   */
  function ScanPolygonFrom(s: Str, pos: Size): (r: Result<seq<Point>, Fault>)
    requires pos <= |s|
    ensures r.Ok? ==> |r.value| <= |s| - pos && AllInt(r.value)
    ensures r.Err? ==> r.error == NoConversion || r.error == NumberOutOfRange
    decreases |s| - pos, 1
  {
    if pos >= |s| then Ok([]) else ScanRound(s, pos)
  }

  /**
    One round of the loop: read x, then y, append (x, y) and go on at the
    stop. std::stoi is the only thing that can throw; substr never does.
   */
  function ScanRound(s: Str, pos: Size): (r: Result<seq<Point>, Fault>)
    requires pos < |s|
    ensures r.Ok? ==> 0 < |r.value| <= |s| - pos && AllInt(r.value)
    ensures r.Err? ==> r.error == NoConversion || r.error == NumberOutOfRange
    decreases |s| - pos, 0
  {
    var x :- StoI(XText(s, pos));
    var y :- StoI(YText(s, pos));
    var more :- ScanPolygonFrom(s, Stop(s, pos));
    Ok([Point(x, y)] + more)
  }

  /** The points of a top-level polygon. */
  function ScanPolygon(s: Str): (r: Result<seq<Point>, Fault>)
    ensures r.Ok? ==> |r.value| <= |s| && AllInt(r.value)
    ensures r.Err? ==> r.error == NoConversion || r.error == NumberOutOfRange
  {
    ScanPolygonFrom(s, 0)
  }

  // ---------------------------------------------------------------------------
  // The stream reader

  /** `>> comma`: skip white space and take any one character; None at the end of the text. */
  function Separator(u: string): (r: Option<string>)
    ensures r.Some? ==> |r.value| < |u|
  {
    var t := SkipSpace(u);
    if |t| == 0 then None else Some(t[1..])
  }

  /**
    One round of `iss >> x >> comma >> y`: an integer, then any one
    non-white-space character, then an integer. None when any of the three
    reads fails, which ends the loop.
   */
  function ReadPair(s: string): (r: Option<(Point, string)>)
    ensures r.Some? ==> IsInt(r.value.0.x) && IsInt(r.value.0.y) && |r.value.1| < |s|
  {
    match ScanInt(s)
    case Err(_) => None
    case Ok((x, afterX)) =>
      match Separator(afterX)
      case None => None
      case Some(beforeY) =>
        match ScanInt(beforeY)
        case Err(_) => None
        case Ok((y, afterY)) => Some((Point(x, y), afterY))
  }

  /** Every pair the loop reads, in order, up to the first failed read. */
  function StreamPoints(s: string): (pts: seq<Point>)
    ensures |pts| <= |s| && AllInt(pts)
    decreases |s|
  {
    match ReadPair(s)
    case None => []
    case Some((p, rest)) => [p] + StreamPoints(rest)
  }

  /** The points of a top-level polyline: (0,0) and (10,10) come first, whatever the attribute says. */
  function PolylinePoints(s: string): (pts: seq<Point>)
    ensures |pts| >= 2 && pts[0] == ORIGIN && pts[1] == Point(10, 10)
    ensures pts[2..] == StreamPoints(s)
  {
    [Point(0, 0), Point(10, 10)] + StreamPoints(s)
  }

  // ---------------------------------------------------------------------------
  // Rendering a point list

  /** `x,y` */
  function Pair(p: Point): string {
    Show(p.x) + "," + Show(p.y)
  }

  /** ` x,y` for every point. */
  function Tail(pts: seq<Point>): string {
    if |pts| == 0 then "" else " " + Pair(pts[0]) + Tail(pts[1..])
  }

  /** `x1,y1 x2,y2 … xn,yn`: single spaces, none at either end. */
  function Join(pts: seq<Point>): string {
    if |pts| == 0 then "" else Pair(pts[0]) + Tail(pts[1..])
  }

  lemma TailStart(pts: seq<Point>)
    ensures |Tail(pts)| == 0 || Tail(pts)[0] == ' '
  {
  }

  // ---------------------------------------------------------------------------
  // The stream reader on rendered lists

  /** One pair `X c Y` with any separator that is neither a digit nor white space. */
  lemma ReadPairShow(x: int, y: int, c: char, rest: string)
    requires IsInt(x) && IsInt(y)
    requires !IsDigit(c) && !IsSpace(c)
    requires |rest| == 0 || !IsDigit(rest[0])
    ensures ReadPair(Show(x) + [c] + Show(y) + rest) == Some((Point(x, y), rest))
  {
    var beforeY := Show(y) + rest;
    var afterX := [c] + beforeY;
    assert Show(x) + [c] + Show(y) + rest == Show(x) + afterX;
    ScanShow(x, afterX);
    SeparatorOf(c, beforeY);
    ScanShow(y, rest);
    ReadPairOf(Show(x) + afterX, x, afterX, beforeY, y, rest);
  }

  lemma SeparatorOf(c: char, rest: string)
    requires !IsSpace(c)
    ensures Separator([c] + rest) == Some(rest)
  {
    assert ([c] + rest)[1..] == rest;
  }

  lemma ReadPairOf(s: string, x: int, afterX: string, beforeY: string, y: int, afterY: string)
    requires ScanInt(s) == Ok((x, afterX))
    requires Separator(afterX) == Some(beforeY)
    requires ScanInt(beforeY) == Ok((y, afterY))
    ensures ReadPair(s) == Some((Point(x, y), afterY))
  {
  }

  lemma ReadPairSkipsSpace(w: string, s: string)
    requires AllSpaces(w)
    ensures ReadPair(w + s) == ReadPair(s)
  {
    ScanIntSkipsSpace(w, s);
  }

  /** What follows a rendered pair inside a list does not start with a digit. */
  lemma AfterPair(ps: seq<Point>, junk: string)
    requires |junk| == 0 || !IsDigit(junk[0])
    ensures var after := Tail(ps) + junk; |after| == 0 || !IsDigit(after[0])
  {
    TailStart(ps);
    if |ps| == 0 {
      assert Tail(ps) + junk == junk;
    }
  }

  lemma ReadRenderedPair(p: Point, after: string)
    requires IsInt(p.x) && IsInt(p.y)
    requires |after| == 0 || !IsDigit(after[0])
    ensures ReadPair(Pair(p) + after) == Some((p, after))
    ensures ReadPair(" " + Pair(p) + after) == Some((p, after))
  {
    var u := Show(p.x) + [','] + Show(p.y) + after;
    assert Pair(p) + after == u;
    assert " " + Pair(p) + after == " " + u;
    ReadPairShow(p.x, p.y, ',', after);
    ReadPairSkipsSpace(" ", u);
  }

  /** A rendered pair after a space: the loop reads it and goes on with what follows. */
  lemma StreamSpacedPair(p: Point, after: string)
    requires IsInt(p.x) && IsInt(p.y)
    requires |after| == 0 || !IsDigit(after[0])
    ensures StreamPoints(" " + Pair(p) + after) == [p] + StreamPoints(after)
  {
    ReadRenderedPair(p, after);
  }

  /** A rendered pair at the start: the loop reads it and goes on with what follows. */
  lemma StreamPair(p: Point, after: string)
    requires IsInt(p.x) && IsInt(p.y)
    requires |after| == 0 || !IsDigit(after[0])
    ensures StreamPoints(Pair(p) + after) == [p] + StreamPoints(after)
  {
    ReadRenderedPair(p, after);
  }

  lemma AllIntSplit(pts: seq<Point>)
    requires AllInt(pts) && |pts| > 0
    ensures IsInt(pts[0].x) && IsInt(pts[0].y) && AllInt(pts[1..])
  {
  }

  /** Taking a list apart at its head and putting it back in front of more points. */
  lemma Regroup(pts: seq<Point>, more: seq<Point>)
    requires |pts| > 0
    ensures [pts[0]] + (pts[1..] + more) == pts + more
  {
    assert pts == [pts[0]] + pts[1..];
  }

  lemma TailUnfold(pts: seq<Point>, junk: string)
    requires |pts| > 0
    ensures Tail(pts) + junk == " " + Pair(pts[0]) + (Tail(pts[1..]) + junk)
  {
  }

  lemma JoinUnfold(pts: seq<Point>, junk: string)
    requires |pts| > 0
    ensures Join(pts) + junk == Pair(pts[0]) + (Tail(pts[1..]) + junk)
  {
  }

  /** After the rendered tail of a list, the loop goes on with whatever follows. */
  lemma {:induction false} StreamTail(pts: seq<Point>, junk: string)
    requires AllInt(pts)
    requires |junk| == 0 || !IsDigit(junk[0])
    ensures StreamPoints(Tail(pts) + junk) == pts + StreamPoints(junk)
    decreases |pts|
  {
    if |pts| == 0 {
      assert Tail(pts) + junk == junk;
    } else {
      AllIntSplit(pts);
      AfterPair(pts[1..], junk);
      TailUnfold(pts, junk);
      StreamSpacedPair(pts[0], Tail(pts[1..]) + junk);
      StreamTail(pts[1..], junk);
      Regroup(pts, StreamPoints(junk));
    }
  }

  /** A rendered list followed by anything that starts with a non-digit: the loop reads the list, then goes on. */
  lemma StreamJoin(pts: seq<Point>, junk: string)
    requires AllInt(pts)
    requires |junk| == 0 || !IsDigit(junk[0])
    ensures StreamPoints(Join(pts) + junk) == pts + StreamPoints(junk)
  {
    if |pts| == 0 {
      assert Join(pts) + junk == junk;
    } else {
      AllIntSplit(pts);
      AfterPair(pts[1..], junk);
      JoinUnfold(pts, junk);
      StreamPair(pts[0], Tail(pts[1..]) + junk);
      StreamTail(pts[1..], junk);
      Regroup(pts, StreamPoints(junk));
    }
  }

  /** The stream reader reads a rendered list back. */
  lemma StreamRoundTrip(pts: seq<Point>)
    requires AllInt(pts)
    ensures StreamPoints(Join(pts)) == pts
  {
    StreamJoin(pts, "");
    assert Join(pts) + "" == Join(pts);
    assert ScanInt("").Err?;
  }

  /** A top-level polyline is the two fixed points followed by the rendered list. */
  lemma PolylineRoundTrip(pts: seq<Point>)
    requires AllInt(pts)
    ensures PolylinePoints(Join(pts)) == [Point(0, 0), Point(10, 10)] + pts
  {
    StreamRoundTrip(pts);
  }

  /** A trailing space is ignored by the stream reader: the next read finds no integer and ends the loop. */
  lemma StreamIgnoresTrailingSpace(pts: seq<Point>)
    requires AllInt(pts)
    ensures StreamPoints(Join(pts) + " ") == pts
  {
    StreamJoin(pts, " ");
    assert SkipSpace(" ") == "";
    assert ScanInt(" ").Err?;
  }

  // ---------------------------------------------------------------------------
  // The polygon scanner on rendered lists

  /** Where the pieces of `… X,Y more` sit when the pair starts after the space at `pos`. */
  lemma StepLayout(s: string, pos: nat, wx: string, wy: string, more: string)
    requires pos < |s|
    requires s[pos..] == " " + wx + "," + wy + more
    ensures var comma := pos + 1 + |wx|;
      && comma + 1 + |wy| + |more| == |s|
      && s[pos] == ' '
      && (forall i :: pos + 1 <= i < comma ==> s[i] == wx[i - pos - 1])
      && s[pos + 1 .. comma] == wx
      && s[comma] == ','
      && (forall i :: comma + 1 <= i < comma + 1 + |wy| ==> s[i] == wy[i - comma - 1])
      && s[comma + 1 .. comma + 1 + |wy|] == wy
      && s[comma + 1 + |wy| ..] == more
  {
    var u := s[pos..];
    var comma := pos + 1 + |wx|;
    assert forall i :: pos <= i < |s| ==> s[i] == u[i - pos];
    assert s[pos + 1 .. comma] == u[1 .. 1 + |wx|];
    assert s[comma + 1 .. comma + 1 + |wy|] == u[|wx| + 2 .. |wx| + 2 + |wy|];
    assert s[comma + 1 + |wy| ..] == u[|wx| + 2 + |wy| ..];
  }

  /** The comma of a pair after a space is the first one from that space on. */
  lemma StepComma(s: Str, pos: nat, wx: string, wy: string, more: string)
    requires Plain(wx)
    requires 0 < pos < |s|
    requires s[pos..] == " " + wx + "," + wy + more
    ensures Comma(s, pos) == pos + 1 + |wx|
  {
    StepLayout(s, pos, wx, wy, more);
    var comma := pos + 1 + |wx|;
    forall i | pos <= i < comma
      ensures s[i] != ','
    {
      if i > pos {
        assert s[i] == wx[i - pos - 1];
      }
    }
    FindAt(s, ',', pos, comma);
  }

  /** The pair after a space stops at the space that follows its y, or at the end of the text. */
  lemma StepStop(s: Str, pos: nat, wx: string, wy: string, more: string)
    requires Plain(wx) && Plain(wy)
    requires 0 < pos < |s|
    requires s[pos..] == " " + wx + "," + wy + more
    requires |more| == 0 || more[0] == ' '
    ensures Stop(s, pos) == |s| - |more|
  {
    StepComma(s, pos, wx, wy, more);
    StepLayout(s, pos, wx, wy, more);
    var comma := pos + 1 + |wx|;
    var end := comma + 1 + |wy|;
    forall i | comma <= i < end
      ensures s[i] != ' '
    {
      if i > comma {
        assert s[i] == wy[i - comma - 1];
      }
    }
    if |more| > 0 {
      assert s[end] == more[0];
      FindAt(s, ' ', comma, end);
    } else {
      FindSpec(s, ' ', comma);
    }
  }

  /** The x text of a pair after a space begins with its x. */
  lemma StepX(s: Str, pos: nat, wx: string, wy: string, more: string)
    requires Plain(wx)
    requires 0 < pos < |s|
    requires s[pos..] == " " + wx + "," + wy + more
    ensures Begins(XText(s, pos), wx)
  {
    StepComma(s, pos, wx, wy, more);
    StepLayout(s, pos, wx, wy, more);
    var comma := pos + 1 + |wx|;
    var xLen := Min(comma - pos, |s| - (pos + 1));
    assert XText(s, pos) == s[pos + 1 .. pos + 1 + xLen];
    SliceBegins(s, pos + 1, xLen, wx);
  }

  /** The y text of a pair after a space begins with its y. */
  lemma StepY(s: Str, pos: nat, wx: string, wy: string, more: string)
    requires Plain(wx) && Plain(wy)
    requires 0 < pos < |s|
    requires s[pos..] == " " + wx + "," + wy + more
    requires |more| == 0 || more[0] == ' '
    ensures Begins(YText(s, pos), wy)
  {
    StepComma(s, pos, wx, wy, more);
    StepStop(s, pos, wx, wy, more);
    StepLayout(s, pos, wx, wy, more);
    var comma := pos + 1 + |wx|;
    var end := comma + 1 + |wy|;
    var yLen := Min(end - comma, |s| - (comma + 1));
    assert YText(s, pos) == s[comma + 1 .. comma + 1 + yLen];
    assert end == |s| || s[end] == ' ';
    SliceBegins(s, comma + 1, yLen, wy);
  }

  /** The x and y texts of a pair after a space, and where the scanner goes next. */
  lemma StepAt(s: Str, pos: nat, wx: string, wy: string, more: string)
    requires Plain(wx) && Plain(wy)
    requires 0 < pos < |s|
    requires s[pos..] == " " + wx + "," + wy + more
    requires |more| == 0 || more[0] == ' '
    ensures Begins(XText(s, pos), wx) && Begins(YText(s, pos), wy)
    ensures Stop(s, pos) == |s| - |more|
  {
    StepX(s, pos, wx, wy, more);
    StepY(s, pos, wx, wy, more);
    StepStop(s, pos, wx, wy, more);
  }

  /** Where the pieces of `X,Y more` sit at the start of the text. */
  lemma FirstLayout(s: string, wx: string, wy: string, more: string)
    requires s == wx + "," + wy + more
    ensures var comma := |wx|;
      && comma + 1 + |wy| + |more| == |s|
      && s[..comma] == wx
      && (forall i :: 0 <= i < comma ==> s[i] == wx[i])
      && s[comma] == ','
      && (forall i :: comma + 1 <= i < comma + 1 + |wy| ==> s[i] == wy[i - comma - 1])
      && s[comma + 1 .. comma + 1 + |wy|] == wy
      && s[comma + 1 + |wy| ..] == more
  {
  }

  /** The x and y texts of the first pair, and where the scanner goes next. */
  lemma FirstAt(s: Str, wx: string, wy: string, more: string)
    requires Plain(wx) && Plain(wy)
    requires s == wx + "," + wy + more
    requires |more| == 0 || more[0] == ' '
    ensures 0 < |s|
    ensures Begins(XText(s, 0), wx) && Begins(YText(s, 0), wy)
    ensures Stop(s, 0) == |s| - |more|
  {
    FirstLayout(s, wx, wy, more);
    var comma := |wx|;
    var end := comma + 1 + |wy|;
    FindAt(s, ',', 0, comma);
    if |more| > 0 {
      assert s[end] == more[0];
      FindAt(s, ' ', comma, end);
    } else {
      FindSpec(s, ' ', comma);
    }
    assert Stop(s, 0) == end;
    assert XText(s, 0) == s[0 .. comma];
    SliceBegins(s, 0, comma, wx);
    var yLen := Min(end - comma, |s| - (comma + 1));
    assert YText(s, 0) == s[comma + 1 .. comma + 1 + yLen];
    assert end == |s| || s[end] == ' ';
    SliceBegins(s, comma + 1, yLen, wy);
  }

  /** The round from `pos` reads the point `p` and stops at `next`. */
  predicate RoundReads(s: Str, pos: nat, p: Point, next: nat) {
    && pos < |s|
    && StoI(XText(s, pos)) == Ok(p.x)
    && StoI(YText(s, pos)) == Ok(p.y)
    && Stop(s, pos) == next
  }

  /** A round whose texts begin with the numerals of `p` reads `p`. */
  lemma WordsRead(s: Str, pos: nat, p: Point, next: nat)
    requires pos < |s|
    requires IsInt(p.x) && IsInt(p.y)
    requires Begins(XText(s, pos), Show(p.x)) && Begins(YText(s, pos), Show(p.y))
    requires Stop(s, pos) == next
    ensures RoundReads(s, pos, p, next)
  {
    StoIPrefix(XText(s, pos), p.x);
    StoIPrefix(YText(s, pos), p.y);
  }

  /** One round of the scanner: read (x, y), then go on at the stop with whatever the rest reads. */
  lemma Step(s: Str, pos: nat, p: Point, next: nat, rest: seq<Point>, r: Result<seq<Point>, Fault>)
    requires RoundReads(s, pos, p, next)
    requires ScanPolygonFrom(s, next) == Prepend(rest, r)
    ensures ScanPolygonFrom(s, pos) == Prepend([p] + rest, r)
  {
    PrependTwice([p], rest, r);
  }

  lemma PrependTwice(a: seq<Point>, b: seq<Point>, r: Result<seq<Point>, Fault>)
    ensures Prepend(a, Prepend(b, r)) == Prepend(a + b, r)
  {
    if r.Ok? {
      assert a + (b + r.value) == (a + b) + r.value;
    }
  }

  lemma PrependNothing(r: Result<seq<Point>, Fault>)
    ensures Prepend([], r) == r
  {
    if r.Ok? {
      assert [] + r.value == r.value;
    }
  }

  lemma PrependAll(pts: seq<Point>)
    ensures Prepend(pts, Ok([])) == Ok(pts)
  {
    assert pts + [] == pts;
  }

  /** A list put back together from its head and the rest. */
  lemma Cons(pts: seq<Point>)
    requires |pts| > 0
    ensures [pts[0]] + pts[1..] == pts
  {
  }

  /** What follows a rendered pair inside a list is empty or starts with a space. */
  lemma AfterPairSpace(ps: seq<Point>, more: string)
    requires |more| == 0 || more[0] == ' '
    ensures var after := Tail(ps) + more; |after| == 0 || after[0] == ' '
  {
    TailStart(ps);
    if |ps| == 0 {
      assert Tail(ps) + more == more;
    }
  }

  /** A rendered pair, spelled out as its two numerals. */
  lemma PairWords(p: Point, after: string)
    ensures Pair(p) + after == Show(p.x) + "," + Show(p.y) + after
    ensures " " + Pair(p) + after == " " + Show(p.x) + "," + Show(p.y) + after
  {
  }

  /** The end of a text whose suffix from `pos` ends in `b` is `b`. */
  lemma SuffixAt(s: string, pos: nat, a: string, b: string)
    requires pos <= |s| && s[pos..] == a + b
    ensures |b| <= |s| && s[|s| - |b|..] == b
  {
    assert s[|s| - |b|..] == s[pos..][|a|..];
  }

  /** The round after a space that starts a rendered tail reads the tail's first point and stops where the rest begins. */
  lemma TailRound(s: Str, pos: nat, pts: seq<Point>, more: string, next: nat)
    requires AllInt(pts) && |pts| > 0
    requires 0 < pos <= |s|
    requires s[pos..] == Tail(pts) + more
    requires |more| == 0 || more[0] == ' '
    requires next == |s| - |Tail(pts[1..]) + more|
    ensures 0 < next <= |s|
    ensures RoundReads(s, pos, pts[0], next)
    ensures s[next..] == Tail(pts[1..]) + more
    ensures AllInt(pts[1..])
  {
    var p, after := pts[0], Tail(pts[1..]) + more;
    AllIntSplit(pts);
    AfterPairSpace(pts[1..], more);
    TailUnfold(pts, more);
    SuffixAt(s, pos, " " + Pair(p), after);
    PairWords(p, after);
    ShowPlain(p.x);
    ShowPlain(p.y);
    StepAt(s, pos, Show(p.x), Show(p.y), after);
    WordsRead(s, pos, p, |s| - |after|);
  }

  /** The first round on a rendered list reads its first point and stops where the rest begins. */
  lemma JoinRound(s: Str, pts: seq<Point>, more: string, next: nat)
    requires AllInt(pts) && |pts| > 0
    requires s == Join(pts) + more
    requires |more| == 0 || more[0] == ' '
    requires next == |s| - |Tail(pts[1..]) + more|
    ensures 0 < next <= |s|
    ensures RoundReads(s, 0, pts[0], next)
    ensures s[next..] == Tail(pts[1..]) + more
    ensures AllInt(pts[1..])
  {
    var p, after := pts[0], Tail(pts[1..]) + more;
    AllIntSplit(pts);
    AfterPairSpace(pts[1..], more);
    JoinUnfold(pts, more);
    assert s[0..] == s;
    SuffixAt(s, 0, Pair(p), after);
    PairWords(p, after);
    ShowPlain(p.x);
    ShowPlain(p.y);
    FirstAt(s, Show(p.x), Show(p.y), after);
    WordsRead(s, 0, p, |s| - |after|);
  }

  /**
    Started at `pos`, the scanner reads exactly the points `pts`, one round
    each, and arrives at `end`.
   */
  predicate Reads(s: Str, pos: nat, pts: seq<Point>, end: nat)
    decreases |pts|
  {
    && pos <= |s|
    && if |pts| == 0 then pos == end
       else pos < |s| && RoundReads(s, pos, pts[0], Stop(s, pos)) && Reads(s, Stop(s, pos), pts[1..], end)
  }

  /** Rounds that read `pts` put them in front of whatever the scanner reads from where they end. */
  lemma {:induction false} ScanReads(s: Str, pos: nat, pts: seq<Point>, end: nat)
    ensures Reads(s, pos, pts, end) ==>
      end <= |s| && ScanPolygonFrom(s, pos) == Prepend(pts, ScanPolygonFrom(s, end))
    decreases |pts|
  {
    if Reads(s, pos, pts, end) {
      if |pts| == 0 {
        PrependNothing(ScanPolygonFrom(s, pos));
      } else {
        var next := Stop(s, pos);
        ScanReads(s, next, pts[1..], end);
        Step(s, pos, pts[0], next, pts[1..], ScanPolygonFrom(s, end));
        Cons(pts);
      }
    }
  }

  /** No rounds read no points. */
  lemma ReadsNothing(s: Str, pos: nat, pts: seq<Point>, more: string)
    requires |pts| == 0
    requires pos <= |s|
    requires s[pos..] == Tail(pts) + more
    ensures Reads(s, pos, pts, |s| - |more|)
  {
    assert s[pos..] == more;
  }

  /** A round that reads the head, then rounds that read the rest. */
  lemma ReadsCons(s: Str, pos: nat, pts: seq<Point>, next: nat, end: nat)
    requires |pts| > 0
    requires RoundReads(s, pos, pts[0], next)
    requires Reads(s, next, pts[1..], end)
    ensures Reads(s, pos, pts, end)
  {
  }

  /** From a space that starts a rendered tail, the rounds read the tail's points and end where `more` begins. */
  lemma {:induction false} TailReads(s: Str, pos: nat, pts: seq<Point>, more: string, end: nat)
    requires AllInt(pts)
    requires 0 < pos <= |s|
    requires s[pos..] == Tail(pts) + more
    requires |more| == 0 || more[0] == ' '
    requires end == |s| - |more|
    ensures Reads(s, pos, pts, end)
    decreases |pts|
  {
    if |pts| == 0 {
      ReadsNothing(s, pos, pts, more);
    } else {
      var next := |s| - |Tail(pts[1..]) + more|;
      TailRound(s, pos, pts, more, next);
      TailReads(s, next, pts[1..], more, end);
      ReadsCons(s, pos, pts, next, end);
    }
  }

  /** A rendered list followed by `more` (empty or starting with a space): the rounds read its points and end where `more` begins. */
  lemma JoinReads(s: Str, pts: seq<Point>, more: string, end: nat)
    requires AllInt(pts) && |pts| > 0
    requires s == Join(pts) + more
    requires |more| == 0 || more[0] == ' '
    requires end == |s| - |more|
    ensures Reads(s, 0, pts, end)
  {
    var next := |s| - |Tail(pts[1..]) + more|;
    JoinRound(s, pts, more, next);
    TailReads(s, next, pts[1..], more, end);
    ReadsCons(s, 0, pts, next, end);
  }

  /** The scanner reads a rendered list back. */
  lemma PolygonRoundTrip(pts: seq<Point>)
    requires AllInt(pts)
    requires |Join(pts)| < NPOS
    ensures ScanPolygon(Join(pts)) == Ok(pts)
  {
    var s: Str := Join(pts);
    if |pts| > 0 {
      assert s == Join(pts) + "";
      JoinReads(s, pts, "", |s|);
      ScanReads(s, 0, pts, |s|);
      assert ScanPolygonFrom(s, |s|) == Ok([]);
      PrependAll(pts);
    }
  }

  /** A trailing space makes the scanner throw: the last round reads x from the empty text. */
  lemma PolygonTrailingSpaceThrows(pts: seq<Point>)
    requires AllInt(pts)
    requires |Join(pts)| + 1 < NPOS
    ensures ScanPolygon(Join(pts) + " ") == Err(NoConversion)
  {
    var s: Str := Join(pts) + " ";
    if |pts| == 0 {
      assert s == " ";
      LoneSpaceThrows();
    } else {
      var pos := |s| - 1;
      JoinReads(s, pts, " ", pos);
      ScanReads(s, 0, pts, pos);
      LastSpaceThrows(s);
    }
  }

  /** A lone space: with no comma, x is read from the whole text, which holds no digit. */
  lemma LoneSpaceThrows()
    ensures ScanPolygon(" ") == Err(NoConversion)
  {
    FindSpec(" ", ',', 0);
    assert XText(" ", 0) == " ";
    assert SkipSpace(" ") == "";
  }

  /** A round that starts at a final space reads x from the empty text, which std::stoi rejects. */
  lemma LastSpaceThrows(s: Str)
    requires |s| > 1 && s[|s| - 1] == ' '
    ensures ScanPolygonFrom(s, |s| - 1) == Err(NoConversion)
  {
    var pos := |s| - 1;
    FindSpec(s, ',', pos);
    assert XText(s, pos) == [];
  }

  /** Without a comma both texts of the first round are the whole text, and the round stops at its end. */
  lemma LoneWords(s: Str, x: int)
    requires IsInt(x) && s == Show(x)
    ensures RoundReads(s, 0, Point(x, x), |s|)
  {
    ShowPlain(x);
    FindSpec(s, ',', 0);
    assert Comma(s, 0) == NPOS;
    assert Stop(s, 0) == |s|;
    assert XText(s, 0) == s[0 .. |s|] == s;
    assert YText(s, 0) == s[0 .. |s|] == s;
    assert s[..|s|] == s;
    WordsRead(s, 0, Point(x, x), |s|);
  }

  /** A lone number "X" reads as the single point (X, X): without a comma both reads start at index 0. */
  lemma PolygonLoneNumber(s: Str, x: int)
    requires IsInt(x) && s == Show(x)
    ensures ScanPolygon(s) == Ok([Point(x, x)])
  {
    LoneWords(s, x);
    PrependNothing(ScanPolygonFrom(s, |s|));
    Step(s, 0, Point(x, x), |s|, [], Ok([]));
    assert [Point(x, x)] + [] == [Point(x, x)];
  }

  /** On a well-formed list the two readers agree. */
  lemma ReadersAgree(pts: seq<Point>)
    requires AllInt(pts)
    requires |Join(pts)| < NPOS
    ensures ScanPolygon(Join(pts)) == Ok(StreamPoints(Join(pts)))
  {
    PolygonRoundTrip(pts);
    StreamRoundTrip(pts);
  }

  /** With a trailing space they part: the scanner throws, the stream reader ignores it. */
  lemma ReadersDisagreeOnTrailingSpace(pts: seq<Point>)
    requires AllInt(pts)
    requires |Join(pts)| + 1 < NPOS
    ensures ScanPolygon(Join(pts) + " ").Err?
    ensures StreamPoints(Join(pts) + " ") == pts
  {
    PolygonTrailingSpaceThrows(pts);
    StreamIgnoresTrailingSpace(pts);
  }
}

=== FILE: read_svg.dfy ===
/**
  readSVG's loop over the children of the root element (readSVG.cpp, lines
  14-202 and 323-325): the transform state every child starts with, the
  dispatch on its tag, the shape it builds, and the three transform calls each
  new leaf receives.

  tinyxml2 is not part of this model: an element arrives as a record of its
  tag, the text of its attributes and the integers IntAttribute reads from
  them. parse_color (Color.hpp) is not part of this model either: it is a
  parameter that may reject a token.
 */
module Reader {
  import opened Wrappers
  import opened Faults
  import opened Geometry
  import opened CppString
  import opened Shapes
  import opened TransformAttr
  import opened PointLists

  /**
    One XML element: its tag, the text of each attribute, and the value
    IntAttribute reads from each attribute that holds an integer.
   */
  datatype Element = Element(name: string, text: map<string, Str>, numbers: map<string, int>)

  /** The root element and its child elements in document order. */
  datatype Document = Document(root: Element, children: seq<Element>)

  /** What readSVG leaves behind: the shapes appended so far, and the exception that ended the loop, if any. */
  datatype Outcome = Outcome(elements: seq<Shape>, fault: Option<Fault>)

  /** The transform state of one child: rotate, translate and scale, and the origin rotate and scale share. */
  datatype Placement = Placement(params: Params, origin: Point)

  /** rotate 0, translate (0,0), scale 1, origin (0,0). */
  const DEFAULT_PLACEMENT: Placement := Placement(IDENTITY, ORIGIN)

  /** The tags that build a leaf. */
  const LEAF_TAGS: set<string> := {"rect", "circle", "line", "ellipse", "polyline", "polygon"}

  /** The group branch is not part of this model. */
  predicate NoGroups(es: seq<Element>) {
    forall i :: 0 <= i < |es| ==> es[i].name != "g"
  }

  // ---------------------------------------------------------------------------
  // Attributes

  /** IntAttribute(key): the attribute's integer, 0 when there is none. */
  function IntAttribute(e: Element, key: string): int {
    if key in e.numbers then e.numbers[key] else 0
  }

  /**
    Attribute(key) copied into a std::string. An absent attribute gives a null
    pointer, which is undefined behaviour; libstdc++ throws std::logic_error,
    and that is the fault modelled here.
   */
  function Attribute(e: Element, key: string): (r: Result<Str, Fault>)
    ensures r.Ok? <==> key in e.text
    ensures r.Ok? ==> r.value == e.text[key]
    ensures r.Err? ==> r.error == NullAttribute(key)
  {
    if key in e.text then Ok(e.text[key]) else Err(NullAttribute(key))
  }

  /** parse_color(Attribute(key)). */
  function ColorOf(e: Element, key: string, resolve: string -> Option<Color>): (r: Result<Color, Fault>)
    ensures r.Ok? <==> key in e.text && resolve(e.text[key]).Some?
    ensures r.Ok? ==> r.value == resolve(e.text[key]).value
    ensures key !in e.text ==> r == Err(NullAttribute(key))
  {
    var token :- Attribute(e, key);
    match resolve(token)
    case Some(c) => Ok(c)
    case None => Err(UnresolvedColor(token))
  }

  // ---------------------------------------------------------------------------
  // The transform state

  /**
    The `transform` attribute first, then `transform_origin`; an absent one
    leaves its part at the default, and the first that throws ends the child.
   */
  function ReadPlacement(e: Element): (r: Result<Placement, Fault>)
    ensures r.Ok? <==>
      && ("transform" in e.text ==> ParseTransform(e.text["transform"]).Ok?)
      && ("transform_origin" in e.text ==> ParsePair(e.text["transform_origin"]).Ok?)
    ensures "transform" in e.text && ParseTransform(e.text["transform"]).Err? ==>
      r == Err(ParseTransform(e.text["transform"]).error)
  {
    var params :- if "transform" in e.text then ParseTransform(e.text["transform"]) else Ok(IDENTITY);
    var origin :- if "transform_origin" in e.text then ParsePair(e.text["transform_origin"]) else Ok(ORIGIN);
    Ok(Placement(params, origin))
  }

  /** The three calls a new leaf receives: rotate about the origin, translate, scale about the same origin. */
  function Moves(p: Placement): seq<Motion> {
    [Rotation(p.origin, p.params.rotate), Translation(p.params.translate), Scaling(p.origin, p.params.scale)]
  }

  /** rotate, then translate, then scale. */
  function Place(s: Shape, p: Placement): (r: Shape)
    ensures Kind(r) == Kind(s)
    ensures s.Leaf? ==> r == Leaf(s.body, s.moves + Moves(p))
  {
    Scale(Translate(Rotate(s, p.origin, p.params.rotate), p.params.translate), p.origin, p.params.scale)
  }

  /** A leaf that has received exactly one rotate, translate and scale, in that order, about one origin. */
  predicate Placed(s: Shape) {
    && s.Leaf? && |s.moves| == 3
    && s.moves[0].Rotation? && s.moves[1].Translation? && s.moves[2].Scaling?
    && s.moves[0].pivot == s.moves[2].pivot
  }

  // ---------------------------------------------------------------------------
  // One child

  /** The class getType() reports for the shape a tag builds. */
  function TagKind(tag: string): string
    requires tag in LEAF_TAGS
  {
    if tag == "rect" then "rect"
    else if tag == "circle" then "Circle"
    else if tag == "line" then "line"
    else if tag == "ellipse" then "Ellipse"
    else if tag == "polyline" then "polyline"
    else "polygon"
  }

  /**
    The tag dispatch: each known tag reads its attributes in the order the
    source does and constructs its shape; any other tag builds nothing.
   */
  function Construct(e: Element, resolve: string -> Option<Color>): (r: Result<Option<Shape>, Fault>)
    ensures e.name !in LEAF_TAGS ==> r == Ok(None)
    ensures r.Ok? && e.name in LEAF_TAGS ==> r.value.Some? && Kind(r.value.value) == TagKind(e.name)
    ensures r.Ok? && r.value.Some? ==> r.value.value.Leaf? && r.value.value.moves == []
  {
    if e.name == "rect" then
      var fill :- ColorOf(e, "fill", resolve);
      var corner := Point(IntAttribute(e, "x"), IntAttribute(e, "y"));
      Ok(Some(MakeRect(fill, corner, IntAttribute(e, "width"), IntAttribute(e, "height"))))
    else if e.name == "circle" then
      var fill :- ColorOf(e, "fill", resolve);
      var r := IntAttribute(e, "r");
      Ok(Some(MakeCircle(fill, Point(IntAttribute(e, "cx"), IntAttribute(e, "cy")), Point(r, r))))
    else if e.name == "line" then
      var stroke :- ColorOf(e, "stroke", resolve);
      var start := Point(IntAttribute(e, "x1"), IntAttribute(e, "y1"));
      Ok(Some(MakeLine(start, Point(IntAttribute(e, "x2"), IntAttribute(e, "y2")), stroke)))
    else if e.name == "ellipse" then
      var fill :- ColorOf(e, "fill", resolve);
      var radius := Point(IntAttribute(e, "rx"), IntAttribute(e, "ry"));
      Ok(Some(MakeEllipse(fill, Point(IntAttribute(e, "cx"), IntAttribute(e, "cy")), radius)))
    else if e.name == "polyline" then
      var text :- Attribute(e, "points");
      var points := PolylinePoints(text);
      var fill :- ColorOf(e, "fill", resolve);
      Ok(Some(MakePolyline(fill, points)))
    else if e.name == "polygon" then
      var text :- Attribute(e, "points");
      var points :- ScanPolygon(text);
      var fill :- ColorOf(e, "fill", resolve);
      Ok(Some(MakePolygon(fill, points)))
    else
      Ok(None)
  }

  /** One pass of the loop body: the transform state, then the shape, then its three transform calls. */
  function BuildElement(e: Element, resolve: string -> Option<Color>): (r: Result<Option<Shape>, Fault>)
    requires e.name != "g"
    ensures ReadPlacement(e).Err? ==> r == Err(ReadPlacement(e).error)
    ensures r.Ok? ==> (r.value.Some? <==> e.name in LEAF_TAGS)
    ensures r.Ok? && r.value.Some? ==>
      && Kind(r.value.value) == TagKind(e.name)
      && r.value.value.Leaf?
      && r.value.value.moves == Moves(ReadPlacement(e).value)
  {
    var placement :- ReadPlacement(e);
    var made :- Construct(e, resolve);
    match made
    case None => Ok(None)
    case Some(s) => Ok(Some(Place(s, placement)))
  }

  // ---------------------------------------------------------------------------
  // The transform state of a child

  /** Without either attribute a child keeps every default. */
  lemma PlacementDefaults(e: Element)
    requires "transform" !in e.text && "transform_origin" !in e.text
    ensures ReadPlacement(e) == Ok(DEFAULT_PLACEMENT)
  {
  }

  /** `rotate(N)` with origin "X Y": the child rotates by N about (X, Y) and keeps translate and scale. */
  lemma PlacementRotate(e: Element, n: int, x: int, y: int)
    requires IsInt(n) && IsInt(x) && IsInt(y)
    requires "transform" in e.text && e.text["transform"] == "rotate(" + Show(n) + ")"
    requires "transform_origin" in e.text && e.text["transform_origin"] == Show(x) + " " + Show(y)
    ensures ReadPlacement(e) == Ok(Placement(Params(n, ORIGIN, 1), Point(x, y)))
  {
    RotateRoundTrip(e.text["transform"], n, ")");
    OriginRoundTrip(e.text["transform_origin"], x, y);
  }

  /** `translate(X Y)` without an origin: the child moves by (X, Y) and keeps rotate, scale and origin. */
  lemma PlacementTranslate(e: Element, x: int, y: int)
    requires IsInt(x) && IsInt(y)
    requires "transform" in e.text && e.text["transform"] == "translate(" + Show(x) + " " + Show(y) + ")"
    requires "transform_origin" !in e.text
    ensures ReadPlacement(e) == Ok(Placement(Params(0, Point(x, y), 1), ORIGIN))
  {
    TranslateRoundTrip(e.text["transform"], x, y, ")");
  }

  /** A transform of another kind changes nothing and throws nothing; the origin is still read. */
  lemma PlacementOtherKind(e: Element)
    requires "transform" in e.text && Head(e.text["transform"]) !in {"rotate", "translate", "scale"}
    requires "transform_origin" !in e.text
    ensures ReadPlacement(e) == Ok(DEFAULT_PLACEMENT)
  {
  }

  /** A child whose transform throws builds nothing, whatever its tag, known or not. */
  lemma BadTransformEndsChild(e: Element, resolve: string -> Option<Color>)
    requires e.name != "g"
    requires "transform" in e.text && ParseTransform(e.text["transform"]).Err?
    ensures BuildElement(e, resolve) == Err(ParseTransform(e.text["transform"]).error)
  {
  }

  // ---------------------------------------------------------------------------
  // What each tag builds, as the sink calls it paints

  /** A rect draws one polygon over its four corners, clockwise from (x, y), under the child's three moves. */
  lemma RectBuilds(e: Element, resolve: string -> Option<Color>, p: Placement, c: Color)
    requires e.name == "rect" && ReadPlacement(e) == Ok(p)
    requires "fill" in e.text && resolve(e.text["fill"]) == Some(c)
    ensures var x, y, w, h := IntAttribute(e, "x"), IntAttribute(e, "y"), IntAttribute(e, "width"), IntAttribute(e, "height");
      && BuildElement(e, resolve).Ok? && BuildElement(e, resolve).value.Some?
      && var s := BuildElement(e, resolve).value.value;
      && Drawable(s)
      && Draw(s) == [Command(DrawPolygon([Point(x, y), Point(x + w, y), Point(x + w, y + h), Point(x, y + h)], Paint(c)), Moves(p))]
  {
  }

  /** A circle draws one ellipse about (cx, cy) whose two radii are both r. */
  lemma CircleBuilds(e: Element, resolve: string -> Option<Color>, p: Placement, c: Color)
    requires e.name == "circle" && ReadPlacement(e) == Ok(p)
    requires "fill" in e.text && resolve(e.text["fill"]) == Some(c)
    ensures var r := IntAttribute(e, "r");
      && BuildElement(e, resolve).Ok? && BuildElement(e, resolve).value.Some?
      && var s := BuildElement(e, resolve).value.value;
      && Drawable(s)
      && Draw(s) == [Command(DrawEllipse(Point(IntAttribute(e, "cx"), IntAttribute(e, "cy")), Point(r, r), Paint(c)), Moves(p))]
  {
  }

  /** An ellipse draws one ellipse about (cx, cy) with radii (rx, ry). */
  lemma EllipseBuilds(e: Element, resolve: string -> Option<Color>, p: Placement, c: Color)
    requires e.name == "ellipse" && ReadPlacement(e) == Ok(p)
    requires "fill" in e.text && resolve(e.text["fill"]) == Some(c)
    ensures var radius := Point(IntAttribute(e, "rx"), IntAttribute(e, "ry"));
      && BuildElement(e, resolve).Ok? && BuildElement(e, resolve).value.Some?
      && var s := BuildElement(e, resolve).value.value;
      && Drawable(s)
      && Draw(s) == [Command(DrawEllipse(Point(IntAttribute(e, "cx"), IntAttribute(e, "cy")), radius, Paint(c)), Moves(p))]
  {
  }

  /** A line joins (x1, y1) to (x2, y2); the colour it is built with comes from `stroke`. */
  lemma LineBuilds(e: Element, resolve: string -> Option<Color>, p: Placement, c: Color)
    requires e.name == "line" && ReadPlacement(e) == Ok(p)
    requires "stroke" in e.text && resolve(e.text["stroke"]) == Some(c)
    ensures var start, end := Point(IntAttribute(e, "x1"), IntAttribute(e, "y1")), Point(IntAttribute(e, "x2"), IntAttribute(e, "y2"));
      && BuildElement(e, resolve).Ok? && BuildElement(e, resolve).value.Some?
      && var s := BuildElement(e, resolve).value.value;
      && s.body == Line(Path(c, [start, end]), start, end)
      && Drawable(s)
      && Draw(s) == [Command(DrawLine(start, end, Unset), Moves(p))]
  {
  }

  /** A line never reads `fill`: taking it away changes nothing. */
  lemma LineIgnoresFill(e: Element, resolve: string -> Option<Color>)
    requires e.name == "line"
    ensures BuildElement(e.(text := e.text - {"fill"}), resolve) == BuildElement(e, resolve)
  {
    var e' := e.(text := e.text - {"fill"});
    forall k | k != "fill"
      ensures k in e'.text <==> k in e.text
      ensures k in e.text ==> e'.text[k] == e.text[k]
    {
    }
    assert ReadPlacement(e') == ReadPlacement(e);
    assert ColorOf(e', "stroke", resolve) == ColorOf(e, "stroke", resolve);
  }

  /** A polyline over a rendered list keeps (0,0) and (10,10) in front of the list's points and draws the chain through all of them. */
  lemma PolylineBuilds(e: Element, resolve: string -> Option<Color>, p: Placement, c: Color, pts: seq<Point>)
    requires e.name == "polyline" && ReadPlacement(e) == Ok(p)
    requires AllInt(pts)
    requires "points" in e.text && e.text["points"] == Join(pts)
    requires "fill" in e.text && resolve(e.text["fill"]) == Some(c)
    ensures var all := [Point(0, 0), Point(10, 10)] + pts;
      && BuildElement(e, resolve).Ok? && BuildElement(e, resolve).value.Some?
      && var s := BuildElement(e, resolve).value.value;
      && s.body == Polyline(Path(c, all))
      && Drawable(s)
      && |Draw(s)| == |pts| + 1
      && Draw(s)[0] == Command(DrawLine(Point(0, 0), Point(10, 10), Paint(c)), Moves(p))
  {
    PolylineRoundTrip(pts);
  }

  /** A polygon over a rendered list draws one polygon over exactly the list's points, in order. */
  lemma PolygonBuilds(e: Element, resolve: string -> Option<Color>, p: Placement, c: Color, pts: seq<Point>)
    requires e.name == "polygon" && ReadPlacement(e) == Ok(p)
    requires AllInt(pts)
    requires "points" in e.text && e.text["points"] == Join(pts)
    requires "fill" in e.text && resolve(e.text["fill"]) == Some(c)
    ensures && BuildElement(e, resolve).Ok? && BuildElement(e, resolve).value.Some?
      && var s := BuildElement(e, resolve).value.value;
      && Drawable(s)
      && Draw(s) == [Command(DrawPolygon(pts, Paint(c)), Moves(p))]
  {
    PolygonRoundTrip(pts);
  }

  /** A polygon whose list ends in a space throws from std::stoi before `fill` is read. */
  lemma PolygonTrailingSpace(e: Element, resolve: string -> Option<Color>, pts: seq<Point>)
    requires e.name == "polygon" && ReadPlacement(e).Ok?
    requires AllInt(pts)
    requires "points" in e.text && e.text["points"] == Join(pts) + " "
    ensures BuildElement(e, resolve) == Err(NoConversion)
  {
    PolygonTrailingSpaceThrows(pts);
  }

  /** A polyline or polygon without `points` throws for it, before `fill` is looked at. */
  lemma MissingPoints(e: Element, resolve: string -> Option<Color>)
    requires e.name in {"polyline", "polygon"} && ReadPlacement(e).Ok?
    requires "points" !in e.text
    ensures BuildElement(e, resolve) == Err(NullAttribute("points"))
  {
  }

  /** A rect, circle or ellipse without `fill` throws for it. */
  lemma MissingFill(e: Element, resolve: string -> Option<Color>)
    requires e.name in {"rect", "circle", "ellipse"} && ReadPlacement(e).Ok?
    requires "fill" !in e.text
    ensures BuildElement(e, resolve) == Err(NullAttribute("fill"))
  {
  }

  /** Any other tag appends nothing once its transform state has been read. */
  lemma UnknownTagBuildsNothing(e: Element, resolve: string -> Option<Color>)
    requires e.name !in LEAF_TAGS && e.name != "g"
    requires ReadPlacement(e).Ok?
    ensures BuildElement(e, resolve) == Ok(None)
  {
  }

  // ---------------------------------------------------------------------------
  // The document

  /** The build of every child, in document order. */
  function Builds(es: seq<Element>, resolve: string -> Option<Color>): (rs: seq<Result<Option<Shape>, Fault>>)
    requires NoGroups(es)
    ensures |rs| == |es|
    ensures forall i :: 0 <= i < |es| ==> rs[i] == BuildElement(es[i], resolve)
  {
    seq(|es|, i requires 0 <= i < |es| => BuildElement(es[i], resolve))
  }

  function Appended(made: Option<Shape>): seq<Shape> {
    match made
    case None => []
    case Some(s) => [s]
  }

  /**
    The loop over the builds in order: each success appends its shape, if it
    has one, and the first exception ends the loop, leaving the shapes appended
    before it in the vector.
   */
  function Collect(rs: seq<Result<Option<Shape>, Fault>>): Outcome
    decreases |rs|
  {
    if |rs| == 0 then Outcome([], None)
    else
      match rs[0]
      case Err(f) => Outcome([], Some(f))
      case Ok(made) =>
        var rest := Collect(rs[1..]);
        Outcome(Appended(made) + rest.elements, rest.fault)
  }

  /** The loop over the children of the root. */
  function ReadChildren(es: seq<Element>, resolve: string -> Option<Color>): Outcome
    requires NoGroups(es)
  {
    Collect(Builds(es, resolve))
  }

  /** readSVG: the dimensions from the root, then the children. */
  function ReadDocument(d: Document, resolve: string -> Option<Color>): (Point, Outcome)
    requires NoGroups(d.children)
  {
    (Point(IntAttribute(d.root, "width"), IntAttribute(d.root, "height")), ReadChildren(d.children, resolve))
  }

  /** The number of builds that succeed with a shape. */
  function ShapeCount(rs: seq<Result<Option<Shape>, Fault>>): nat {
    if |rs| == 0 then 0 else (if rs[0].Ok? && rs[0].value.Some? then 1 else 0) + ShapeCount(rs[1..])
  }

  /** The number of children whose tag builds a leaf. */
  function LeafCount(es: seq<Element>): nat {
    if |es| == 0 then 0 else (if es[0].name in LEAF_TAGS then 1 else 0) + LeafCount(es[1..])
  }

  // ---------------------------------------------------------------------------
  // The loop over the builds

  /** Two runs of builds one after the other: the second is looked at only when the first ends without an exception. */
  lemma {:induction false} CollectAppend(a: seq<Result<Option<Shape>, Fault>>, b: seq<Result<Option<Shape>, Fault>>)
    ensures var ra, rb := Collect(a), Collect(b);
      Collect(a + b) == if ra.fault.None? then Outcome(ra.elements + rb.elements, rb.fault) else ra
    decreases |a|
  {
    if |a| == 0 {
      assert a + b == b;
      assert [] + Collect(b).elements == Collect(b).elements;
    } else {
      assert (a + b)[0] == a[0];
      assert (a + b)[1..] == a[1..] + b;
      CollectAppend(a[1..], b);
      match a[0]
      case Err(_) =>
      case Ok(made) =>
        var rest, rb := Collect(a[1..]), Collect(b);
        assert Appended(made) + (rest.elements + rb.elements) == (Appended(made) + rest.elements) + rb.elements;
    }
  }

  /** The loop runs to the end exactly when every build succeeds, and then it appends one shape per build that has one. */
  lemma {:induction false} CollectSucceeds(rs: seq<Result<Option<Shape>, Fault>>)
    ensures Collect(rs).fault.None? <==> forall i :: 0 <= i < |rs| ==> rs[i].Ok?
    ensures Collect(rs).fault.None? ==> |Collect(rs).elements| == ShapeCount(rs)
    decreases |rs|
  {
    if |rs| > 0 {
      CollectSucceeds(rs[1..]);
      assert forall i :: 1 <= i < |rs| ==> rs[i] == rs[1..][i - 1];
    }
  }

  /** The vector holds only shapes some build produced, at most one per build. */
  lemma {:induction false} CollectKeeps(rs: seq<Result<Option<Shape>, Fault>>, P: Shape -> bool)
    requires forall i :: 0 <= i < |rs| && rs[i].Ok? && rs[i].value.Some? ==> P(rs[i].value.value)
    ensures |Collect(rs).elements| <= |rs|
    ensures forall j :: 0 <= j < |Collect(rs).elements| ==> P(Collect(rs).elements[j])
    decreases |rs|
  {
    if |rs| > 0 {
      assert forall i :: 1 <= i < |rs| ==> rs[i] == rs[1..][i - 1];
      CollectKeeps(rs[1..], P);
    }
  }

  /** A build that succeeds after a run read without an exception: its shape, if any, goes last. */
  lemma CollectStepOk(rs: seq<Result<Option<Shape>, Fault>>, k: nat)
    requires k < |rs| && Collect(rs[..k]).fault.None? && rs[k].Ok?
    ensures Collect(rs[..k + 1]) == Outcome(Collect(rs[..k]).elements + Appended(rs[k].value), None)
  {
    assert rs[..k + 1] == rs[..k] + [rs[k]];
    assert [rs[k]][1..] == [];
    CollectAppend(rs[..k], [rs[k]]);
  }

  /** A build that throws after a run read without an exception: the loop ends there with that exception. */
  lemma CollectStepErr(rs: seq<Result<Option<Shape>, Fault>>, k: nat)
    requires k < |rs| && Collect(rs[..k]).fault.None? && rs[k].Err?
    ensures Collect(rs) == Outcome(Collect(rs[..k]).elements, Some(rs[k].error))
  {
    assert rs == rs[..k] + rs[k..];
    assert rs[k..][0] == rs[k];
    CollectAppend(rs[..k], rs[k..]);
    assert Collect(rs[..k]).elements + [] == Collect(rs[..k]).elements;
  }

  // ---------------------------------------------------------------------------
  // The loop over the children

  lemma BuildsAppend(a: seq<Element>, b: seq<Element>, resolve: string -> Option<Color>)
    requires NoGroups(a) && NoGroups(b)
    ensures NoGroups(a + b)
    ensures Builds(a + b, resolve) == Builds(a, resolve) + Builds(b, resolve)
  {
    forall i | 0 <= i < |a + b|
      ensures (a + b)[i] == if i < |a| then a[i] else b[i - |a|]
    {
    }
  }

  /** Document order: reading two runs of children reads the second only when the first ends without an exception. */
  lemma ReadChildrenAppend(a: seq<Element>, b: seq<Element>, resolve: string -> Option<Color>)
    requires NoGroups(a) && NoGroups(b)
    ensures NoGroups(a + b)
    ensures var ra, rb := ReadChildren(a, resolve), ReadChildren(b, resolve);
      ReadChildren(a + b, resolve) == if ra.fault.None? then Outcome(ra.elements + rb.elements, rb.fault) else ra
  {
    BuildsAppend(a, b, resolve);
    CollectAppend(Builds(a, resolve), Builds(b, resolve));
  }

  /** Every shape left in the vector is a leaf placed by one rotate, translate and scale; there is at most one per child. */
  lemma ReadChildrenPlaced(es: seq<Element>, resolve: string -> Option<Color>)
    requires NoGroups(es)
    ensures |ReadChildren(es, resolve).elements| <= |es|
    ensures forall j :: 0 <= j < |ReadChildren(es, resolve).elements| ==> Placed(ReadChildren(es, resolve).elements[j])
  {
    CollectKeeps(Builds(es, resolve), Placed);
  }

  /** The loop runs to the end exactly when every child builds, and then it appends one shape per child with a leaf tag. */
  lemma {:induction false} ReadChildrenSucceeds(es: seq<Element>, resolve: string -> Option<Color>)
    requires NoGroups(es)
    ensures ReadChildren(es, resolve).fault.None? <==> forall i :: 0 <= i < |es| ==> BuildElement(es[i], resolve).Ok?
    ensures ReadChildren(es, resolve).fault.None? ==> |ReadChildren(es, resolve).elements| == LeafCount(es)
  {
    var rs := Builds(es, resolve);
    CollectSucceeds(rs);
    if Collect(rs).fault.None? {
      CountLeaves(es, resolve);
    }
  }

  lemma {:induction false} CountLeaves(es: seq<Element>, resolve: string -> Option<Color>)
    requires NoGroups(es)
    requires forall i :: 0 <= i < |es| ==> BuildElement(es[i], resolve).Ok?
    ensures ShapeCount(Builds(es, resolve)) == LeafCount(es)
    decreases |es|
  {
    if |es| > 0 {
      var rs := Builds(es, resolve);
      assert NoGroups(es[1..]);
      assert rs[1..] == Builds(es[1..], resolve);
      CountLeaves(es[1..], resolve);
    }
  }

  /** The first child that throws: its exception escapes, and the vector holds what the children before it appended. */
  lemma FirstFault(es: seq<Element>, k: nat, resolve: string -> Option<Color>)
    requires NoGroups(es) && k < |es|
    requires forall i :: 0 <= i < k ==> BuildElement(es[i], resolve).Ok?
    requires BuildElement(es[k], resolve).Err?
    ensures NoGroups(es[..k])
    ensures ReadChildren(es, resolve) == Outcome(ReadChildren(es[..k], resolve).elements, Some(BuildElement(es[k], resolve).error))
  {
    var rs := Builds(es, resolve);
    assert NoGroups(es[..k]);
    assert rs[..k] == Builds(es[..k], resolve);
    CollectSucceeds(rs[..k]);
    CollectStepErr(rs, k);
  }

  /**
    readSVG as written: a loop over the children that appends each leaf as it
    is built and stops at the first exception.
   */
  method ReadSVG(d: Document, resolve: string -> Option<Color>) returns (dimensions: Point, elements: seq<Shape>, fault: Option<Fault>)
    requires NoGroups(d.children)
    ensures dimensions == Point(IntAttribute(d.root, "width"), IntAttribute(d.root, "height"))
    ensures (dimensions, Outcome(elements, fault)) == ReadDocument(d, resolve)
    ensures forall i :: 0 <= i < |elements| ==> Placed(elements[i])
  {
    dimensions := Point(IntAttribute(d.root, "width"), IntAttribute(d.root, "height"));
    elements, fault := [], None;
    var cs := d.children;
    ghost var rs := Builds(cs, resolve);
    ReadChildrenPlaced(cs, resolve);
    var i := 0;
    while i < |cs|
      invariant 0 <= i <= |cs|
      invariant Collect(rs[..i]) == Outcome(elements, None)
    {
      match BuildElement(cs[i], resolve)
      case Err(f) =>
        CollectStepErr(rs, i);
        fault := Some(f);
        return;
      case Ok(made) =>
        CollectStepOk(rs, i);
        elements := elements + Appended(made);
        i := i + 1;
    }
    assert rs[..i] == rs;
  }
}

=== FILE: svg_elements.dfy ===
/**
  The SVGElement hierarchy of SVGElements.hpp and SVGElements.cpp as immutable
  values: the variant classes and their fields, their constructors, their kind
  tags, their draw output as a trace of sink calls, and Group's fan-out of the
  transform calls.

  The Point transform formulas and the per-class translate/rotate/scale bodies
  are not part of this model, so a leaf records the transform calls it
  receives as a log instead of moving its coordinates.
 */
module Shapes {
  import opened Geometry

  /** The fields Ellipse declares and Circle inherits without adding any. */
  datatype Oval = Oval(fill: Color, center: Point, radius: Point)

  /** The fields polyline and polygon declare; line and rect inherit them. */
  datatype Path = Path(fill: Color, points: seq<Point>)

  /** The geometry each leaf class owns. */
  datatype Body =
    | Ellipse(oval: Oval)
    | Circle(oval: Oval)
    | Polyline(path: Path)
    | Line(path: Path, start: Point, end: Point)
    | Polygon(path: Path)
    | Rect(path: Path)

  /**
    An SVGElement: a leaf owns its constructed geometry and the log of the
    transform calls it has received; a Group owns an ordered sequence of
    children and an id, and no geometry.
   */
  datatype Shape =
    | Leaf(body: Body, moves: seq<Motion>)
    | Group(elements: seq<Shape>, id: string)

  /** getType(). */
  function Kind(s: Shape): string {
    match s
    case Group(_, _) => "Group"
    case Leaf(b, _) =>
      match b
      case Ellipse(_) => "Ellipse"
      case Circle(_) => "Circle"
      case Polyline(_) => "polyline"
      case Line(_, _, _) => "line"
      case Polygon(_) => "polygon"
      case Rect(_) => "rect"
  }

  /** Both bodies belong to the same leaf class. */
  predicate SameBodyClass(a: Body, b: Body) {
    || (a.Ellipse? && b.Ellipse?)
    || (a.Circle? && b.Circle?)
    || (a.Polyline? && b.Polyline?)
    || (a.Line? && b.Line?)
    || (a.Polygon? && b.Polygon?)
    || (a.Rect? && b.Rect?)
  }

  /** Both shapes are instances of the same class. */
  predicate SameClass(a: Shape, b: Shape) {
    || (a.Group? && b.Group?)
    || (a.Leaf? && b.Leaf? && SameBodyClass(a.body, b.body))
  }

  /** Each class reports its own tag and no two classes share one. */
  lemma KindsDistinct(a: Shape, b: Shape)
    ensures Kind(a) in {"Ellipse", "Circle", "polyline", "line", "polygon", "rect", "Group"}
    ensures Kind(a) == Kind(b) <==> SameClass(a, b)
  {
  }

  // ---------------------------------------------------------------------------
  // Drawing

  /** What the sink is asked to paint with; line::draw reads a member no constructor sets. */
  datatype Ink = Paint(color: Color) | Unset

  /** One call on the PNGImage sink. */
  datatype Primitive =
    | DrawEllipse(center: Point, radius: Point, ink: Ink)
    | DrawLine(p: Point, q: Point, ink: Ink)
    | DrawPolygon(vertices: seq<Point>, ink: Ink)

  /** A sink call, with the transform calls the issuing leaf had received. */
  datatype Command = Command(primitive: Primitive, moves: seq<Motion>)

  /**
    polyline::draw loops while `i < points.size() - 1` in size_t, so an empty
    point list wraps the bound and reads past the vector: only bodies without
    that case can be drawn.
   */
  predicate Paintable(b: Body) {
    b.Polyline? ==> |b.path.points| >= 1
  }

  predicate Drawable(s: Shape) {
    match s
    case Leaf(b, _) => Paintable(b)
    case Group(cs, _) => forall i :: 0 <= i < |cs| ==> Drawable(cs[i])
  }

  /** The open chain through `points`: one segment per consecutive pair. */
  function Segments(points: seq<Point>, ink: Ink): (r: seq<Primitive>)
    requires |points| >= 1
    ensures |r| == |points| - 1
    ensures forall i :: 0 <= i < |r| ==> r[i] == DrawLine(points[i], points[i + 1], ink)
  {
    if |points| == 1 then []
    else [DrawLine(points[0], points[1], ink)] + Segments(points[1..], ink)
  }

  /** polyline::draw as written: a size_t loop issuing draw_line per consecutive pair. */
  method DrawPolyline(points: seq<Point>, ink: Ink) returns (out: seq<Primitive>)
    requires |points| >= 1
    ensures |out| == |points| - 1
    ensures forall i :: 0 <= i < |out| ==> out[i] == DrawLine(points[i], points[i + 1], ink)
    ensures out == Segments(points, ink)
  {
    out := [];
    var i := 0;
    while i < |points| - 1
      invariant 0 <= i <= |points| - 1
      invariant |out| == i
      invariant forall j :: 0 <= j < i ==> out[j] == DrawLine(points[j], points[j + 1], ink)
    {
      out := out + [DrawLine(points[i], points[i + 1], ink)];
      i := i + 1;
    }
    var chain := Segments(points, ink);
    assert |out| == |chain|;
    forall k | 0 <= k < |out|
      ensures out[k] == chain[k]
    {
      assert out[k] == DrawLine(points[k], points[k + 1], ink);
      assert chain[k] == DrawLine(points[k], points[k + 1], ink);
    }
  }

  /** The sink calls each leaf class's draw issues. */
  function Primitives(b: Body): seq<Primitive>
    requires Paintable(b)
  {
    match b
    case Ellipse(o) => [DrawEllipse(o.center, o.radius, Paint(o.fill))]
    case Circle(o) => [DrawEllipse(o.center, o.radius, Paint(o.fill))]
    case Polyline(p) => Segments(p.points, Paint(p.fill))
    case Line(_, s, e) => [DrawLine(s, e, Unset)]
    case Polygon(p) => [DrawPolygon(p.points, Paint(p.fill))]
    case Rect(p) => [DrawPolygon(p.points, Paint(p.fill))]
  }

  function Issue(prims: seq<Primitive>, moves: seq<Motion>): (r: seq<Command>)
    ensures |r| == |prims|
    ensures forall i :: 0 <= i < |r| ==> r[i] == Command(prims[i], moves)
  {
    seq(|prims|, i requires 0 <= i < |prims| => Command(prims[i], moves))
  }

  /** draw(img): the sink calls in the order they are issued. */
  function Draw(s: Shape): seq<Command>
    requires Drawable(s)
    decreases s, 1
  {
    match s
    case Leaf(b, ms) => Issue(Primitives(b), ms)
    case Group(cs, _) => DrawAll(cs)
  }

  /** Group::draw's loop: each child drawn in sequence order. */
  function DrawAll(cs: seq<Shape>): seq<Command>
    requires forall i :: 0 <= i < |cs| ==> Drawable(cs[i])
    decreases cs, 0
  {
    if |cs| == 0 then [] else Draw(cs[0]) + DrawAll(cs[1..])
  }

  // ---------------------------------------------------------------------------
  // Transforms

  /** One transform call: a leaf logs it, a Group forwards it to every child. */
  function Apply(s: Shape, m: Motion): (r: Shape)
    ensures Kind(r) == Kind(s)
    ensures s.Leaf? ==> r.Leaf? && r.body == s.body && r.moves == s.moves + [m]
    ensures s.Group? ==> r.Group? && r.id == s.id && |r.elements| == |s.elements|
    decreases s, 1
  {
    match s
    case Leaf(b, ms) => Leaf(b, ms + [m])
    case Group(cs, id) => Group(FanOut(cs, m), id)
  }

  /** Group's loop over its children, forwarding the same call to each in order. */
  function FanOut(cs: seq<Shape>, m: Motion): (r: seq<Shape>)
    ensures |r| == |cs|
    ensures forall i :: 0 <= i < |cs| ==> r[i] == Apply(cs[i], m)
    decreases cs, 0
  {
    if |cs| == 0 then [] else [Apply(cs[0], m)] + FanOut(cs[1..], m)
  }

  function Translate(s: Shape, dir: Point): Shape {
    Apply(s, Translation(dir))
  }

  function Rotate(s: Shape, origin: Point, degrees: int): Shape {
    Apply(s, Rotation(origin, degrees))
  }

  function Scale(s: Shape, origin: Point, factor: int): Shape {
    Apply(s, Scaling(origin, factor))
  }

  // ---------------------------------------------------------------------------
  // Constructors

  function MakeEllipse(fill: Color, center: Point, radius: Point): (s: Shape)
    ensures Kind(s) == "Ellipse" && s.Leaf? && s.moves == []
    ensures s.body.oval == Oval(fill, center, radius)
    ensures Drawable(s) && Draw(s) == [Command(DrawEllipse(center, radius, Paint(fill)), [])]
  {
    Leaf(Ellipse(Oval(fill, center, radius)), [])
  }

  function MakeCircle(fill: Color, center: Point, radius: Point): (s: Shape)
    ensures Kind(s) == "Circle" && s.Leaf? && s.moves == []
    ensures s.body.oval == Oval(fill, center, radius)
    ensures Drawable(s) && Draw(s) == [Command(DrawEllipse(center, radius, Paint(fill)), [])]
  {
    Leaf(Circle(Oval(fill, center, radius)), [])
  }

  function MakePolyline(fill: Color, points: seq<Point>): (s: Shape)
    ensures Kind(s) == "polyline" && s.Leaf? && s.moves == []
    ensures s.body.path == Path(fill, points)
    ensures Drawable(s) <==> |points| >= 1
  {
    Leaf(Polyline(Path(fill, points)), [])
  }

  /** line(start, end, fill): a polyline over [start, end] that also names both ends. */
  function MakeLine(start: Point, end: Point, fill: Color): (s: Shape)
    ensures Kind(s) == "line" && s.Leaf? && s.moves == []
    ensures s.body.path == Path(fill, [start, end])
    ensures s.body.start == start && s.body.end == end
    ensures Drawable(s) && Draw(s) == [Command(DrawLine(start, end, Unset), [])]
  {
    Leaf(Line(Path(fill, [start, end]), start, end), [])
  }

  function MakePolygon(fill: Color, points: seq<Point>): (s: Shape)
    ensures Kind(s) == "polygon" && s.Leaf? && s.moves == []
    ensures s.body.path == Path(fill, points)
    ensures Drawable(s) && Draw(s) == [Command(DrawPolygon(points, Paint(fill)), [])]
  {
    Leaf(Polygon(Path(fill, points)), [])
  }

  /** The four corners rect derives, clockwise from the upper-left one, with no off-by-one adjustment. */
  function Corners(upperLeft: Point, width: int, height: int): (r: seq<Point>)
    ensures |r| == 4 && r[0] == upperLeft
    ensures forall i :: 0 <= i < 4 ==> r[i].x - upperLeft.x in {0, width} && r[i].y - upperLeft.y in {0, height}
  {
    [ upperLeft,
      Point(upperLeft.x + width, upperLeft.y),
      Point(upperLeft.x + width, upperLeft.y + height),
      Point(upperLeft.x, upperLeft.y + height) ]
  }

  function MakeRect(fill: Color, upperLeft: Point, width: int, height: int): (s: Shape)
    ensures Kind(s) == "rect" && s.Leaf? && s.moves == []
    ensures s.body.path == Path(fill, Corners(upperLeft, width, height))
    ensures Drawable(s) && Draw(s) == [Command(DrawPolygon(Corners(upperLeft, width, height), Paint(fill)), [])]
  {
    Leaf(Rect(Path(fill, Corners(upperLeft, width, height))), [])
  }

  function MakeGroup(elements: seq<Shape>, id: string): (s: Shape)
    ensures Kind(s) == "Group" && s.elements == elements && s.id == id
    ensures Drawable(s) <==> forall i :: 0 <= i < |elements| ==> Drawable(elements[i])
  {
    Group(elements, id)
  }

  // ---------------------------------------------------------------------------
  // Properties of the constructors

  /** A Circle is an Ellipse's geometry under another tag: same fields, same drawing. */
  lemma CircleIsEllipse(fill: Color, center: Point, radius: Point)
    ensures MakeCircle(fill, center, radius).body.oval == MakeEllipse(fill, center, radius).body.oval
    ensures Draw(MakeCircle(fill, center, radius)) == Draw(MakeEllipse(fill, center, radius))
    ensures Kind(MakeCircle(fill, center, radius)) != Kind(MakeEllipse(fill, center, radius))
  {
  }

  /** A line draws exactly the open chain of the two-point list it inherits from polyline. */
  lemma LineIsTwoPointPolyline(start: Point, end: Point, fill: Color)
    ensures var s := MakeLine(start, end, fill);
      |s.body.path.points| == 2 &&
      Draw(s) == Issue(Segments(s.body.path.points, Unset), [])
  {
  }

  /** A rect draws exactly as the polygon over its four derived corners. */
  lemma RectIsPolygon(fill: Color, upperLeft: Point, width: int, height: int)
    ensures var r := MakeRect(fill, upperLeft, width, height);
      Draw(r) == Draw(MakePolygon(fill, r.body.path.points))
  {
  }

  /**
    The corners span exactly `width` by `height` from the upper-left corner and
    every edge, the closing one included, is axis-parallel.
   */
  lemma RectSpansBox(fill: Color, upperLeft: Point, width: int, height: int)
    requires width >= 0 && height >= 0
    ensures var v := MakeRect(fill, upperLeft, width, height).body.path.points;
      && (forall i :: 0 <= i < 4 ==> upperLeft.x <= v[i].x <= upperLeft.x + width)
      && (forall i :: 0 <= i < 4 ==> upperLeft.y <= v[i].y <= upperLeft.y + height)
      && (exists i :: 0 <= i < 4 && v[i].x == upperLeft.x + width)
      && (exists i :: 0 <= i < 4 && v[i].y == upperLeft.y + height)
      && v[0].y == v[1].y && v[1].x == v[2].x && v[2].y == v[3].y && v[3].x == v[0].x
  {
    var v := MakeRect(fill, upperLeft, width, height).body.path.points;
    assert v == Corners(upperLeft, width, height);
    assert v[2].x == upperLeft.x + width && v[2].y == upperLeft.y + height;
  }

  /** A polyline of N >= 1 points issues N - 1 segments joining consecutive points; one point issues nothing. */
  lemma PolylineSegmentCount(fill: Color, points: seq<Point>)
    requires |points| >= 1
    ensures var d := Draw(MakePolyline(fill, points));
      && |d| == |points| - 1
      && (forall i :: 0 <= i < |d| ==> d[i] == Command(DrawLine(points[i], points[i + 1], Paint(fill)), []))
  {
  }

  // ---------------------------------------------------------------------------
  // Properties of Group

  lemma {:induction false} DrawAllAppend(a: seq<Shape>, b: seq<Shape>)
    requires forall i :: 0 <= i < |a| ==> Drawable(a[i])
    requires forall i :: 0 <= i < |b| ==> Drawable(b[i])
    ensures forall i :: 0 <= i < |a + b| ==> Drawable((a + b)[i])
    ensures DrawAll(a + b) == DrawAll(a) + DrawAll(b)
    decreases |a|
  {
    if |a| == 0 {
      assert a + b == b;
    } else {
      assert (a + b)[1..] == a[1..] + b;
      DrawAllAppend(a[1..], b);
    }
  }

  /** Appending a child to a group appends its drawing last: later children paint over earlier ones. */
  lemma GroupPaintOrder(cs: seq<Shape>, c: Shape, id: string)
    requires Drawable(Group(cs, id)) && Drawable(c)
    ensures Drawable(Group(cs + [c], id))
    ensures Draw(Group(cs + [c], id)) == Draw(Group(cs, id)) + Draw(c)
  {
    DrawAllAppend(cs, [c]);
    assert DrawAll([c]) == Draw(c) + DrawAll([]);
  }

  /** Group::draw as written: a loop drawing each child in turn. */
  method DrawGroup(g: Shape) returns (out: seq<Command>)
    requires g.Group? && Drawable(g)
    ensures out == Draw(g)
  {
    out := [];
    var i := 0;
    while i < |g.elements|
      invariant 0 <= i <= |g.elements|
      invariant out == DrawAll(g.elements[..i])
    {
      DrawAllAppend(g.elements[..i], [g.elements[i]]);
      assert g.elements[..i + 1] == g.elements[..i] + [g.elements[i]];
      assert DrawAll([g.elements[i]]) == Draw(g.elements[i]) + DrawAll([]);
      out := out + Draw(g.elements[i]);
      i := i + 1;
    }
    assert g.elements[..i] == g.elements;
  }

  /** The leaves of a shape tree in depth-first, document order. */
  function Leaves(s: Shape): (r: seq<Shape>)
    ensures forall i :: 0 <= i < |r| ==> r[i].Leaf?
    decreases s, 1
  {
    match s
    case Leaf(_, _) => [s]
    case Group(cs, _) => LeavesAll(cs)
  }

  function LeavesAll(cs: seq<Shape>): (r: seq<Shape>)
    ensures forall i :: 0 <= i < |r| ==> r[i].Leaf?
    decreases cs, 0
  {
    if |cs| == 0 then [] else Leaves(cs[0]) + LeavesAll(cs[1..])
  }

  /** Paint order: drawing a tree issues its leaves' drawings in depth-first order. */
  lemma {:induction false} DrawIsLeafOrder(s: Shape)
    requires Drawable(s)
    ensures forall i :: 0 <= i < |Leaves(s)| ==> Drawable(Leaves(s)[i])
    ensures Draw(s) == DrawAll(Leaves(s))
    decreases s, 1
  {
    match s
    case Leaf(_, _) =>
      assert DrawAll([s]) == Draw(s) + DrawAll([]);
    case Group(cs, _) =>
      DrawAllIsLeafOrder(cs);
  }

  lemma {:induction false} DrawAllIsLeafOrder(cs: seq<Shape>)
    requires forall i :: 0 <= i < |cs| ==> Drawable(cs[i])
    ensures forall i :: 0 <= i < |LeavesAll(cs)| ==> Drawable(LeavesAll(cs)[i])
    ensures DrawAll(cs) == DrawAll(LeavesAll(cs))
    decreases cs, 0
  {
    if |cs| > 0 {
      DrawIsLeafOrder(cs[0]);
      DrawAllIsLeafOrder(cs[1..]);
      DrawAllAppend(Leaves(cs[0]), LeavesAll(cs[1..]));
    }
  }

  /**
    Fan-out at any depth: transforming a tree gives every leaf, in the same
    order, exactly that one transform call.
   */
  lemma {:induction false} ApplyReachesEveryLeaf(s: Shape, m: Motion)
    ensures |Leaves(Apply(s, m))| == |Leaves(s)|
    ensures forall i :: 0 <= i < |Leaves(s)| ==> Leaves(Apply(s, m))[i] == Apply(Leaves(s)[i], m)
    decreases s, 1
  {
    match s
    case Leaf(_, _) =>
    case Group(cs, _) =>
      FanOutReachesEveryLeaf(cs, m);
  }

  lemma {:induction false} FanOutReachesEveryLeaf(cs: seq<Shape>, m: Motion)
    ensures |LeavesAll(FanOut(cs, m))| == |LeavesAll(cs)|
    ensures forall i :: 0 <= i < |LeavesAll(cs)| ==> LeavesAll(FanOut(cs, m))[i] == Apply(LeavesAll(cs)[i], m)
    decreases cs, 0
  {
    if |cs| > 0 {
      var r := FanOut(cs, m);
      assert r[1..] == FanOut(cs[1..], m);
      ApplyReachesEveryLeaf(cs[0], m);
      FanOutReachesEveryLeaf(cs[1..], m);
    }
  }

  /** Every command of a drawing, with one more transform call logged. */
  function Stamp(cmds: seq<Command>, m: Motion): (r: seq<Command>)
    ensures |r| == |cmds|
    ensures forall i :: 0 <= i < |r| ==> r[i] == Command(cmds[i].primitive, cmds[i].moves + [m])
  {
    seq(|cmds|, i requires 0 <= i < |cmds| => Command(cmds[i].primitive, cmds[i].moves + [m]))
  }

  /**
    A transform call changes nothing about what is drawn, or in which order,
    except that every command carries that call in its log.
   */
  lemma {:induction false} DrawAfterApply(s: Shape, m: Motion)
    requires Drawable(s)
    ensures Drawable(Apply(s, m))
    ensures Draw(Apply(s, m)) == Stamp(Draw(s), m)
    decreases s, 1
  {
    match s
    case Leaf(_, _) =>
    case Group(cs, _) =>
      DrawAllAfterFanOut(cs, m);
  }

  lemma {:induction false} DrawAllAfterFanOut(cs: seq<Shape>, m: Motion)
    requires forall i :: 0 <= i < |cs| ==> Drawable(cs[i])
    ensures forall i :: 0 <= i < |cs| ==> Drawable(FanOut(cs, m)[i])
    ensures DrawAll(FanOut(cs, m)) == Stamp(DrawAll(cs), m)
    decreases cs, 0
  {
    var r := FanOut(cs, m);
    forall i | 0 <= i < |cs|
      ensures Drawable(r[i])
    {
      DrawAfterApply(cs[i], m);
    }
    if |cs| > 0 {
      assert r[1..] == FanOut(cs[1..], m);
      DrawAfterApply(cs[0], m);
      DrawAllAfterFanOut(cs[1..], m);
      assert Stamp(DrawAll(cs), m) == Stamp(Draw(cs[0]), m) + Stamp(DrawAll(cs[1..]), m);
    }
  }

  /** The same tree with every log emptied: all that a transform call may not change. */
  function Frame(s: Shape): Shape
    decreases s, 1
  {
    match s
    case Leaf(b, _) => Leaf(b, [])
    case Group(cs, id) => Group(FrameAll(cs), id)
  }

  function FrameAll(cs: seq<Shape>): (r: seq<Shape>)
    ensures |r| == |cs|
    ensures forall i :: 0 <= i < |cs| ==> r[i] == Frame(cs[i])
    decreases cs, 0
  {
    if |cs| == 0 then [] else [Frame(cs[0])] + FrameAll(cs[1..])
  }

  /** A transform call keeps every class, child list, id and constructed geometry. */
  lemma {:induction false} ApplyKeepsFrame(s: Shape, m: Motion)
    ensures Frame(Apply(s, m)) == Frame(s)
    decreases s, 1
  {
    match s
    case Leaf(_, _) =>
    case Group(cs, id) =>
      var r := FanOut(cs, m);
      forall i | 0 <= i < |cs|
        ensures Frame(r[i]) == Frame(cs[i])
      {
        ApplyKeepsFrame(cs[i], m);
      }
      assert FrameAll(r) == FrameAll(cs);
  }
}

=== FILE: transform_attr.dfy ===
/**
  The `transform` and `transform_origin` attributes as readSVG reads them
  (readSVG.cpp, lines 33-79): index arithmetic in size_t over std::string::find,
  std::string::substr whose second argument is a count, and std::stoi.
 */
module TransformAttr {
  import opened Wrappers
  import opened Faults
  import opened Geometry
  import opened CppString

  /** The transform parameters readSVG keeps per element. */
  datatype Params = Params(rotate: int, translate: Point, scale: int)

  /** The values readSVG starts every element with: rotate 0, translate (0,0), scale 1. */
  const IDENTITY: Params := Params(0, ORIGIN, 1)

  /** The transform kind: the text before the first '(', or all of it when there is none. */
  function Head(t: Str): (h: string)
    ensures |h| <= |t| && h == t[..|h|]
    ensures forall i :: 0 <= i < |h| ==> h[i] != '('
    ensures |h| < |t| ==> t[|h|] == '('
  {
    FindSpec(t, '(', 0);
    Substr(t, 0, Find(t, '(', 0)).value
  }

  /**
    The argument of `rotate(N)` and `scale(N)`: std::stoi of the text from just
    after the first '(' (from the start when there is none, since npos + 1 is 0).
   */
  function Argument(t: Str): (r: Result<int, Fault>)
    ensures r.Ok? ==> IsInt(r.value)
    ensures r.Err? ==> r.error == NoConversion || r.error == NumberOutOfRange
  {
    StoI(ArgumentText(t))
  }

  /** The text std::stoi reads the argument from, up to the first ')' or the end. */
  function ArgumentText(t: Str): string {
    // the position is at most |t|, so this substr cannot throw
    Substr(t, Inc(Find(t, '(', 0)), Find(t, ')', 0)).value
  }

  /**
    The two numbers of `translate(X Y)` and of transform_origin: X from just
    after the first '(', Y from just after the first ' ', each position
    wrapping to 0 when the character is absent.
   */
  function ParsePair(t: Str): (r: Result<Point, Fault>)
    ensures r.Ok? ==> IsInt(r.value.x) && IsInt(r.value.y)
    ensures r.Err? ==> r.error == NoConversion || r.error == NumberOutOfRange
  {
    var x :- StoI(FirstText(t));
    var y :- StoI(SecondText(t));
    Ok(Point(x, y))
  }

  /** The text X is read from: from just after the first '(', at most up to the first ' '. */
  function FirstText(t: Str): string {
    // the position is at most |t|, so this substr cannot throw
    Substr(t, Inc(Find(t, '(', 0)), Find(t, ' ', 0)).value
  }

  /** The text Y is read from: from just after the first ' ', at most up to the first ')'. */
  function SecondText(t: Str): string {
    // the position is at most |t|, so this substr cannot throw
    Substr(t, Inc(Find(t, ' ', 0)), Find(t, ')', 0)).value
  }

  /**
    The `transform` attribute: a recognised kind sets its own parameter and
    no other; any other kind leaves every parameter at its default.
   */
  function ParseTransform(t: Str): (r: Result<Params, Fault>)
    ensures Head(t) !in {"rotate", "translate", "scale"} ==> r == Ok(IDENTITY)
    ensures r.Ok? && Head(t) != "rotate" ==> r.value.rotate == 0
    ensures r.Ok? && Head(t) != "translate" ==> r.value.translate == ORIGIN
    ensures r.Ok? && Head(t) != "scale" ==> r.value.scale == 1
    ensures r.Err? ==> Head(t) in {"rotate", "translate", "scale"}
    ensures r.Err? ==> r.error == NoConversion || r.error == NumberOutOfRange
  {
    var kind := Head(t);
    if kind == "rotate" then
      var n :- Argument(t);
      Ok(IDENTITY.(rotate := n))
    else if kind == "translate" then
      var p :- ParsePair(t);
      Ok(IDENTITY.(translate := p))
    else if kind == "scale" then
      var n :- Argument(t);
      Ok(IDENTITY.(scale := n))
    else
      Ok(IDENTITY)
  }

  // ---------------------------------------------------------------------------
  // How each kind is dispatched

  lemma RotateOf(t: Str, n: int)
    requires Head(t) == "rotate" && Argument(t) == Ok(n)
    ensures ParseTransform(t) == Ok(Params(n, ORIGIN, 1))
  {
  }

  lemma ScaleOf(t: Str, n: int)
    requires Head(t) == "scale" && Argument(t) == Ok(n)
    ensures ParseTransform(t) == Ok(Params(0, ORIGIN, n))
  {
  }

  lemma TranslateOf(t: Str, p: Point)
    requires Head(t) == "translate" && ParsePair(t) == Ok(p)
    ensures ParseTransform(t) == Ok(Params(0, p, 1))
  {
  }

  // ---------------------------------------------------------------------------
  // Where the scanners land, for words that contain no mark

  lemma HeadAt(t: Str, k: nat)
    requires k < |t| && t[k] == '('
    requires forall i :: 0 <= i < k ==> t[i] != '('
    ensures Head(t) == t[..k]
  {
    FindAt(t, '(', 0, k);
  }

  /** The argument text starts with the word just after the first '(', when no ')' comes before it. */
  lemma ArgumentTextAt(t: Str, k: nat, w: string)
    requires Plain(w)
    requires k + 1 + |w| <= |t|
    requires t[k] == '('
    requires forall i :: 0 <= i < k ==> t[i] != '(' && t[i] != ')'
    requires t[k + 1 .. k + 1 + |w|] == w
    requires k + 1 + |w| == |t| || !IsDigit(t[k + 1 + |w|])
    ensures Begins(ArgumentText(t), w)
  {
    FindAt(t, '(', 0, k);
    assert forall j :: 0 <= j < |w| ==> w[j] != ')';
    FindPastSlice(t, ')', k + 1, w);
    var len := Min(Find(t, ')', 0), |t| - (k + 1));
    assert ArgumentText(t) == t[k + 1 .. k + 1 + len];
    SliceBegins(t, k + 1, len, w);
  }

  /** Where the pieces of `name(W…` sit. */
  lemma ArgumentLayout(t: string, name: string, w: string, rest: string)
    requires t == name + "(" + w + rest
    requires |rest| == 0 || !IsDigit(rest[0])
    ensures var k := |name|;
      && k + 1 + |w| <= |t|
      && t[..k] == name && t[k] == '('
      && (forall i :: 0 <= i < k ==> t[i] == name[i])
      && t[k + 1 .. k + 1 + |w|] == w
      && (k + 1 + |w| == |t| || !IsDigit(t[k + 1 + |w|]))
  {
    var k := |name|;
    assert k + 1 + |w| == |t| || t[k + 1 + |w|] == rest[0];
  }

  /** `name(W…`: the kind is `name` and the argument text starts with W. */
  lemma ArgumentAfter(t: Str, name: string, w: string, rest: string)
    requires Plain(name) && Plain(w)
    requires t == name + "(" + w + rest
    requires |rest| == 0 || !IsDigit(rest[0])
    ensures Head(t) == name
    ensures Begins(ArgumentText(t), w)
  {
    ArgumentLayout(t, name, w, rest);
    HeadAt(t, |name|);
    ArgumentTextAt(t, |name|, w);
  }

  /** The text X is read from starts with the word at `start` when a space follows that word. */
  lemma FirstTextAt(t: Str, start: nat, w: string)
    requires start + |w| < |t|
    requires t[start .. start + |w|] == w && t[start + |w|] == ' '
    requires Inc(Find(t, '(', 0)) == start
    requires Find(t, ' ', 0) == start + |w|
    ensures Begins(FirstText(t), w)
  {
    var len := Min(Find(t, ' ', 0), |t| - start);
    assert FirstText(t) == t[start .. start + len];
    SliceBegins(t, start, len, w);
  }

  /** The text Y is read from starts with the word just after the first space. */
  lemma SecondTextAt(t: Str, start: nat, w: string)
    requires start + |w| <= |t|
    requires t[start .. start + |w|] == w
    requires start + |w| == |t| || !IsDigit(t[start + |w|])
    requires Inc(Find(t, ' ', 0)) == start
    requires Find(t, ')', 0) == NPOS || Find(t, ')', 0) >= start + |w|
    ensures Begins(SecondText(t), w)
  {
    var len := Min(Find(t, ')', 0), |t| - start);
    assert SecondText(t) == t[start .. start + len];
    SliceBegins(t, start, len, w);
  }

  /**
    The pair reader on `… X Y …` where X starts just after the first '(' (or
    at 0 when there is no '('), and nothing before it is a space or a ')'.
   */
  lemma PairAt(t: Str, start: nat, wx: string, wy: string)
    requires Plain(wx) && Plain(wy)
    requires start + |wx| + 1 + |wy| <= |t|
    requires t[start .. start + |wx|] == wx
    requires t[start + |wx|] == ' '
    requires t[start + |wx| + 1 .. start + |wx| + 1 + |wy|] == wy
    requires start + |wx| + 1 + |wy| == |t| || !IsDigit(t[start + |wx| + 1 + |wy|])
    requires forall i :: 0 <= i < start ==> t[i] != ' ' && t[i] != ')'
    requires start == 0 ==> forall i :: 0 <= i < |t| ==> t[i] != '('
    requires start > 0 ==> t[start - 1] == '(' && forall i :: 0 <= i < start - 1 ==> t[i] != '('
    ensures Begins(FirstText(t), wx) && Begins(SecondText(t), wy)
  {
    var w := wx + " " + wy;
    assert t[start .. start + |w|] == w;
    assert forall j :: 0 <= j < |w| ==> w[j] != ')';
    assert forall j :: 0 <= j < |wx| ==> wx[j] != ' ';
    FindPastSlice(t, ')', start, w);
    FindPastSlice(t, ' ', start, wx);
    FindAt(t, ' ', 0, start + |wx|);
    if start > 0 {
      FindAt(t, '(', 0, start - 1);
    } else {
      FindSpec(t, '(', 0);
    }
    FirstTextAt(t, start, wx);
    SecondTextAt(t, start + |wx| + 1, wy);
  }

  /** Where the pieces of `before X Y after` sit. */
  lemma PairLayout(t: string, before: string, wx: string, wy: string, after: string)
    requires t == before + wx + " " + wy + after
    requires |after| == 0 || !IsDigit(after[0])
    ensures var k := |before|;
      && k + |wx| + 1 + |wy| <= |t|
      && t[..k] == before
      && (forall i :: 0 <= i < k ==> t[i] == before[i])
      && t[k .. k + |wx|] == wx
      && t[k + |wx|] == ' '
      && t[k + |wx| + 1 .. k + |wx| + 1 + |wy|] == wy
      && (k + |wx| + 1 + |wy| == |t| || !IsDigit(t[k + |wx| + 1 + |wy|]))
  {
    var k := |before|;
    assert k + |wx| + 1 + |wy| == |t| || t[k + |wx| + 1 + |wy|] == after[0];
  }

  /** `name(X Y…`: the kind is `name` and the two texts start with X and Y. */
  lemma PairAfter(t: Str, name: string, wx: string, wy: string, rest: string)
    requires Plain(name) && Plain(wx) && Plain(wy)
    requires t == name + "(" + wx + " " + wy + rest
    requires |rest| == 0 || !IsDigit(rest[0])
    ensures Head(t) == name
    ensures Begins(FirstText(t), wx) && Begins(SecondText(t), wy)
  {
    var k := |name|;
    assert t == (name + "(") + wx + " " + wy + rest;
    PairLayout(t, name + "(", wx, wy, rest);
    assert t[k] == '(';
    HeadAt(t, k);
    PairAt(t, k + 1, wx, wy);
  }

  // ---------------------------------------------------------------------------
  // Well-formed attributes read back

  lemma PairOf(t: Str, x: int, y: int)
    requires IsInt(x) && IsInt(y)
    requires Begins(FirstText(t), Show(x)) && Begins(SecondText(t), Show(y))
    ensures ParsePair(t) == Ok(Point(x, y))
  {
    StoIPrefix(FirstText(t), x);
    StoIPrefix(SecondText(t), y);
  }

  /** `rotate(N…` sets the rotation to N and nothing else. */
  lemma RotateRoundTrip(t: Str, n: int, rest: string)
    requires IsInt(n)
    requires t == "rotate(" + Show(n) + rest
    requires |rest| == 0 || !IsDigit(rest[0])
    ensures ParseTransform(t) == Ok(Params(n, ORIGIN, 1))
  {
    ShowPlain(n);
    assert t == "rotate" + "(" + Show(n) + rest;
    ArgumentAfter(t, "rotate", Show(n), rest);
    StoIPrefix(ArgumentText(t), n);
    RotateOf(t, n);
  }

  /** `scale(N…` sets the factor to N and nothing else. */
  lemma ScaleRoundTrip(t: Str, n: int, rest: string)
    requires IsInt(n)
    requires t == "scale(" + Show(n) + rest
    requires |rest| == 0 || !IsDigit(rest[0])
    ensures ParseTransform(t) == Ok(Params(0, ORIGIN, n))
  {
    ShowPlain(n);
    assert t == "scale" + "(" + Show(n) + rest;
    ArgumentAfter(t, "scale", Show(n), rest);
    StoIPrefix(ArgumentText(t), n);
    ScaleOf(t, n);
  }

  /** A fractional factor is cut at the point: `scale(2.5)` scales by 2. */
  lemma ScaleTruncates()
    ensures ParseTransform("scale(2.5)") == Ok(Params(0, ORIGIN, 2))
  {
    assert Show(2) == "2";
    assert "scale(2.5)" == "scale(" + Show(2) + ".5)";
    ScaleRoundTrip("scale(2.5)", 2, ".5)");
  }

  /** `translate(X Y…` sets the translation to (X, Y) and nothing else. */
  lemma TranslateRoundTrip(t: Str, x: int, y: int, rest: string)
    requires IsInt(x) && IsInt(y)
    requires t == "translate(" + Show(x) + " " + Show(y) + rest
    requires |rest| == 0 || !IsDigit(rest[0])
    ensures ParseTransform(t) == Ok(Params(0, Point(x, y), 1))
  {
    ShowPlain(x);
    ShowPlain(y);
    assert t == "translate" + "(" + Show(x) + " " + Show(y) + rest;
    PairAfter(t, "translate", Show(x), Show(y), rest);
    PairOf(t, x, y);
    TranslateOf(t, Point(x, y));
  }

  /** `translate(X)` without the separating space throws: Y is then read from the start of the text. */
  lemma TranslateNeedsSpace(t: Str)
    requires Head(t) == "translate"
    requires forall i :: 0 <= i < |t| ==> t[i] != ' '
    ensures ParseTransform(t).Err?
  {
    FindSpec(t, ' ', 0);
    var close := Find(t, ')', 0);
    assert t[0] == 't';
    var yText := SecondText(t);
    assert yText == t[0 .. Min(close, |t|)];
    assert yText[0] == 't';
    assert SkipSpace(yText) == yText && Unsigned(yText) == yText;
    assert DigitRun(yText) == 0;
  }

  /** transform_origin "X Y" reads back as (X, Y). */
  lemma OriginRoundTrip(t: Str, x: int, y: int)
    requires IsInt(x) && IsInt(y)
    requires t == Show(x) + " " + Show(y)
    ensures ParsePair(t) == Ok(Point(x, y))
  {
    ShowPlain(x);
    ShowPlain(y);
    assert t == "" + Show(x) + " " + Show(y) + "";
    PairLayout(t, "", Show(x), Show(y), "");
    forall i | 0 <= i < |t|
      ensures t[i] != '('
    {
      if i < |Show(x)| {
        assert t[i] == Show(x)[i];
      } else if i > |Show(x)| {
        assert t[i] == Show(y)[i - |Show(x)| - 1];
      }
    }
    PairAt(t, 0, Show(x), Show(y));
    PairOf(t, x, y);
  }

  /** transform_origin "(X Y)" reads back as (X, Y) too: the '(' is optional. */
  lemma OriginParenthesised(t: Str, x: int, y: int)
    requires IsInt(x) && IsInt(y)
    requires t == "(" + Show(x) + " " + Show(y) + ")"
    ensures ParsePair(t) == Ok(Point(x, y))
  {
    ShowPlain(x);
    ShowPlain(y);
    PairLayout(t, "(", Show(x), Show(y), ")");
    PairAt(t, 1, Show(x), Show(y));
    PairOf(t, x, y);
  }

  /** transform_origin with a single number "X" reads as (X, X): both reads start at index 0. */
  lemma OriginWithoutSpace(t: Str, x: int)
    requires IsInt(x)
    requires t == Show(x)
    ensures ParsePair(t) == Ok(Point(x, x))
  {
    ShowPlain(x);
    FindSpec(t, '(', 0);
    FindSpec(t, ' ', 0);
    FindSpec(t, ')', 0);
    assert FirstText(t) == t[0 .. |t|] == t;
    assert SecondText(t) == t;
    assert t[..|t|] == t;
    PairOf(t, x, x);
  }
}

=== FILE: wrappers.dfy ===
/** Failure-compatible wrappers used throughout the model. */
module Wrappers {

  /** A value that may be absent. */
  datatype Option<+T> = None | Some(value: T)

  /** The outcome of an operation that either yields a value or throws. */
  datatype Result<+T, +E> = Ok(value: T) | Err(error: E) {

    predicate IsFailure() {
      Err?
    }

    function PropagateFailure<U>(): Result<U, E>
      requires Err?
    {
      Err(error)
    }

    function Extract(): T
      requires Ok?
    {
      value
    }
  }
}

/** The exceptions that can escape readSVG for one element. */
module Faults {

  datatype Fault =
    /** std::stoi found no digits (std::invalid_argument). */
    | NoConversion
    /** std::stoi read a number outside the range of int (std::out_of_range). */
    | NumberOutOfRange
    /** std::string::substr was given a position past the end (std::out_of_range). */
    | PositionOutOfRange
    /** A required text attribute is absent, so a std::string is built from a null pointer (libstdc++'s std::logic_error). */
    | NullAttribute(name: string)
    /** The colour collaborator could not resolve the token. */
    | UnresolvedColor(token: string)
}
